=== FILE: README.md ===
# Lex–Teams adapter, modelled in Dafny

The adapter is an AWS Lambda webhook. It receives a Microsoft Teams (Bot Framework) activity, forwards the user's utterance to an Amazon Lex bot, and posts the bot's reply back into the Teams conversation. This project models one run of the handler as a function. Its inputs are the activity body, the decoded configuration secret, the bot settings and the answers of the two Lex calls. Its result is an `Outcome`: either an acknowledgement (status code and `{type, text}` body) together with the messages posted to Teams and the Lex request made, or an uncaught exception (`Crashed`), possibly after the Lex request.

Modules, one per concern of the source:

- `Json`: parsed JSON values, and `Eval`, the outcome of a Python expression. An outcome is a value, a `KeyError` (the one exception the handler catches), or any other exception.
- `Strings`: `str.find`, `str.strip` and `str.split`, with their laws. `Join` is not called by the handler; it is there only to state what `split` returns.
- `PercentEncoding`: `urllib.parse.quote(s, safe="")`, which is UTF-8 followed by section 2.1 of RFC 3986, with decoding as its inverse.
- `Adapter`: `LexTeamsAdapterConfig.from_json`, `LexTeamsAdapter.from_json` and the first-name split.
- `Utterance`: the mention and escaped-newline normalisation of the message text.
- `Tenants`: the comma-separated tenant allow-list. It has a loop version (`FindValidTenant`) proved equal to its specification (`TenantCheck`).
- `Session`: nulls dropped from the fetched Lex session attributes, and the Teams attributes merged in. It has an in-place merge loop (`MergeSessionAttributes`) proved equal to the map it must produce.
- `Outbound`: the reply text, the outbound message, the translation of a Lex response card into a Teams thumbnail card (as a function and as the step-by-step method), and `close`.
- `Delivery`: the reply URL and the client-credentials form body of `postResponseToTeams`.
- `Handler`: `lambda_handler`, step by step, and the properties of a whole run.

The model follows the code as written. A reader of the handler might expect every bad request to get a 400 and every configuration problem a polite 200; in these cases the code does otherwise:

- A missing or undecodable configuration secret raises in `from_json` before any `try`. The run therefore crashes, rather than being acknowledged with 200.
- The 200 "not configured with a Microsoft App ID" answer is given only when the app id or the secret cannot be sliced.
- A non-JSON body, or a body without `from.name` (a string), `text`, `conversation.tenantId` or `type`, makes the adapter raise before step 1. The run then crashes; it does not get a 400.
  - Only `KeyError`s inside step 1 give 400 (`Handler.BadRequestExactly`).
  - A `TypeError` there, such as a non-string `text`, `aadObjectId`, `serviceUrl`, conversation id or activity id, crashes the run.
- `valid_tenant_ids` must be a string. A truthy non-string, such as the list the unit test of the configuration uses, raises on `.split` (`Tenants.ListSettingFaults`). The pieces are not trimmed (`Tenants.NoTrimming`).
- When `post_text` raises, there is no direct fallback to the apology text. The reply is built from the `get_session` response that is still bound to `response`, and its missing `message` key gives the apology (`Handler.FallbackWhenPostTextFails`). When both Lex calls raise, `response` is unbound and the run crashes.
- A response card whose first attachment has no `buttons` but does have `imageUrl` and `title` crashes the run. The image is assigned into a card that was never bound, which is a `NameError` (`Outbound.CardWithoutButtons`). Without a complete image, the base message is posted.
- The outbound `recipient` is the inbound conversation (the adapter stores the conversation as `receivedFrom`), and so is `conversation`. `from` is a one-element list holding the inbound `recipient`, because of a trailing comma.

## Model

| member | source | states |
|---|---|---|
| Strings.Find | app/lambda_function.py:78 | `find` returns the first index where the pattern matches, and none exactly when the text does not contain it |
| Strings.Strip | app/lambda_function.py:83 | the result has no leading or trailing whitespace |
| Strings.StripRemovesOnlyOuterSpace | app/lambda_function.py:83 | `strip` returns a slice of its argument and removes only whitespace around it |
| Strings.StripIdempotent | app/lambda_function.py:83 | stripping twice equals stripping once |
| Strings.Split | app/lambda_function.py:113 | `split` yields one more piece than there are separators, and no piece contains the separator |
| Strings.JoinSplit | app/lambda_function.py:113 | joining the pieces of a split with the separator gives back the string |
| Strings.SplitJoin | app/lambda_function.py:113 | splitting a join of separator-free pieces gives back the pieces |
| PercentEncoding.Quote | app/lambda_function.py:261-263 | the quoted secret holds only unreserved characters, `%` and upper-case hex digits, never `&`, `=`, `+` or a space |
| PercentEncoding.QuoteDecodes | app/lambda_function.py:262 | percent-decoding the quoted secret yields exactly its UTF-8 bytes |
| PercentEncoding.DecodeEncodeBytes | app/lambda_function.py:262 | percent-decoding undoes percent-encoding for every byte string |
| PercentEncoding.QuoteUnreserved | app/lambda_function.py:262 | a secret made of unreserved characters is sent unchanged |
| Adapter.ConfigFromJsonRoundTrip | app/lib/lex_teams_adapter.py:17-22 | decoding the JSON object of a configuration's three fields yields that configuration, whatever the field types |
| Adapter.ConfigFromJson | app/lib/lex_teams_adapter.py:17-22 | an undecodable secret is a decode error; a configuration is built exactly from an object with the three keyword keys, and encoding it back gives that object |
| Adapter.ConfigFromJsonOnlyFields | app/lib/lex_teams_adapter.py:17-22 | a successful decode came from an object with exactly the three keyword fields |
| Adapter.ConfigFromJsonExample | tests/unit/test_handler.py:24-34 | the test's JSON configuration equals the directly built one |
| Adapter.FirstName | app/lib/lex_teams_adapter.py:48 | the first name has no space and is the whole name, or the name's prefix up to its first space |
| Adapter.FirstNameExamples | app/lib/lex_teams_adapter.py:48 | "Ada Lovelace" gives "Ada", a spaceless name is kept, and a leading space gives "" |
| Adapter.AdapterFields | app/lib/lex_teams_adapter.py:42-54 | the adapter is built exactly when `from.name` (a string), `text`, `conversation.tenantId` and `type` exist; it holds them unchanged, with `receivedFrom` set to the conversation and `conversation` to the sender |
| Adapter.AdapterFromJson | app/lib/lex_teams_adapter.py:42-54 | a built adapter keeps the configuration, was read from a body with all four values, and holds the conversation as `receivedFrom` and the sender as `conversation` |
| Utterance.DropEscapedNewline | app/lambda_function.py:81-82 | one trailing backslash-n is removed if present, and nothing otherwise |
| Utterance.NormalizeUtterance | app/lambda_function.py:77-83 | a text without `</at>` is passed through unchanged; otherwise the utterance is stripped |
| Utterance.NormalizeAfterFirstMention | app/lambda_function.py:78-83 | after the first `</at>`, the utterance is the rest of the text without its trailing backslash-n, stripped |
| Utterance.NormalizeWithinSuffix | app/lambda_function.py:78-83 | the utterance is a slice of the text lying after the first `</at>` |
| Utterance.NormalizeMentionedWord | app/lambda_function.py:77-83 | `<at>name</at> word\n` (with a literal backslash-n) normalises to exactly `word` |
| Tenants.TenantCheck | app/lambda_function.py:111-118 | the tenant is accepted exactly when the setting is a non-empty string one of whose comma-separated pieces equals it; a truthy non-string raises; no `KeyError` |
| Tenants.FindValidTenant | app/lambda_function.py:111-118 | the loop with early exit computes exactly `TenantCheck` |
| Tenants.CheckAgainstList | app/lambda_function.py:111-118 | against a comma-joined list of pieces, acceptance is list membership |
| Tenants.EmptySettingAuthorisesNobody | app/lambda_function.py:112 | an empty or null setting accepts no tenant, even an empty tenant id |
| Tenants.NoTrimming | app/lambda_function.py:113-116 | pieces are compared untrimmed: "a, b" accepts " b" and rejects "b" |
| Tenants.ListSettingFaults | app/lambda_function.py:112-113 | a list-valued setting raises |
| Session.FetchedAttributes | app/lambda_function.py:154-167 | with an attribute dictionary in the `get_session` answer, exactly its non-null entries with their values; otherwise (call raised, key missing, not a dictionary) no attributes |
| Session.TeamsAttributes | app/lambda_function.py:170-178 | exactly the seven Teams keys: the user name, its first word, the AAD object id, the tenant, the team and channel ids as read, and the request body |
| Session.Overlay | app/lambda_function.py:179-184 | non-null Teams values win, null-valued Teams keys are absent, and every other key keeps its base value |
| Session.SessionAttributes | app/lambda_function.py:162-184 | the attributes sent to Lex never hold a null value |
| Session.MergeSessionAttributes | app/lambda_function.py:179-184 | the in-place delete-or-assign loop produces exactly the overlay of the Teams attributes on the fetched ones |
| Session.SessionAttributesSpec | app/lambda_function.py:162-184 | no null survives; every non-null Teams value is present; every null Teams key is absent; every other key keeps its fetched value |
| Session.SessionAttributesExample | app/lambda_function.py:162-184 | fetched {a: "1", b: null} with Teams {b: "2", c: null} gives exactly {a: "1", b: "2"} |
| Outbound.ReplyText | app/lambda_function.py:204-205 | the reply is Lex's `message` when the key is present, else the fixed apology |
| Outbound.BaseMessage | app/lambda_function.py:208-215 | exactly the six message keys, `type` being `message`; `from` is a one-element list holding the recipient, `recipient` is the stored `receivedFrom`, and text and reply id are carried |
| Outbound.ImBack | app/lambda_function.py:228 | a Lex button translates exactly when it is a dictionary with `text` and `value`, into an `imBack` button titled by the text; a dictionary missing one of them is a `KeyError` |
| Outbound.TranslateButtons | app/lambda_function.py:228 | it succeeds exactly when every button translates; then it yields one button per item, in order; otherwise some item fails after only successes, and whether it is a `KeyError` decides the exception |
| Outbound.LexButtons | app/lambda_function.py:221-228 | every button produced is an `imBack` button with exactly `type`, `title` and `value`; a first attachment without `buttons` is a `KeyError` |
| Outbound.LexImage | app/lambda_function.py:240-243 | for a dictionary first attachment, an image exactly when it has `imageUrl` and `title`, else a `KeyError`; a failing attachment lookup fails the same way |
| Outbound.ThumbnailCard | app/lambda_function.py:222-232 | the card adds exactly the `attachmentLayout` and `attachments` keys |
| Outbound.TranslateCard | app/lambda_function.py:218-246 | without a card the message is unchanged; the base fields are always kept; at most the two card keys are added; a `KeyError` never escapes |
| Outbound.AttachResponseCard | app/lambda_function.py:218-246 | the step-by-step update, with `teamsButtons` possibly unbound, computes exactly `TranslateCard` |
| Outbound.TranslateWellFormedButtons | app/lambda_function.py:228 | buttons that all carry `text` and `value` become `imBack` buttons with that title and value, in order |
| Outbound.CardFromButtons | app/lambda_function.py:218-246 | a first attachment with well-formed buttons gives one thumbnail card with those buttons, plus an image exactly when both `imageUrl` and `title` exist |
| Outbound.CardWithoutButtons | app/lambda_function.py:219-246 | after a `KeyError` in the buttons, the message is unchanged if the image is incomplete, and the run raises if it is complete |
| Outbound.CardWithoutAttachment | app/lambda_function.py:218-246 | a `KeyError` while reaching the first attachment leaves the message unchanged; any other failure there raises |
| Outbound.CardReadsFirstAttachmentOnly | app/lambda_function.py:220-242 | responses whose cards agree on the first generic attachment translate alike |
| Outbound.TwoButtonsAndImage | app/lambda_function.py:218-246 | two buttons and an image give one list-layout thumbnail attachment with both buttons in order and one image carrying the URL and title |
| Outbound.Close | app/lambda_function.py:284-293 | the acknowledgement carries the status code, and a body with exactly `type` "message" and the given text |
| Delivery.ReplyUrl | app/lambda_function.py:73-74 | the URL starts with the service URL and ends with the activity id, and its length is the sum of its parts |
| Delivery.ReplyUrlInjective | app/lambda_function.py:73-74 | for conversation ids without `/`, the URL determines the conversation id and the activity id |
| Delivery.AuthBody | app/lambda_function.py:261-263 | the form starts with the grant type and the client id field and ends with the Bot Framework scope |
| Delivery.AuthBodyFields | app/lambda_function.py:261-263 | for an app id without `&`, the form has exactly the grant type, client id, client secret and scope fields, in order; the secret field decodes to the secret |
| Handler.ChannelIds | app/lambda_function.py:61-65 | both ids null when `channelData` is absent or falsy; for a truthy dictionary each id is its value or null when missing; a truthy non-dictionary raises; never a `KeyError` |
| Handler.ReadInbound | app/lambda_function.py:48-83 | step 1 succeeds only on an activity with every value it reads, and the utterance is the normalised text |
| Handler.InboundFields | app/lambda_function.py:48-83 | step 1 succeeds exactly when every value it reads is present and every value it concatenates is a string; the utterance is the normalised text and the reply URL is built from the service URL, conversation id and activity id |
| Handler.MissingFieldIsKeyError | app/lambda_function.py:59-68 | after the adapter succeeds, a missing `aadObjectId`, `recipient` or `id` is a `KeyError` |
| Handler.ReadCredentials | app/lambda_function.py:97-108 | the credentials are configured exactly when both the app id and the secret can be sliced |
| Handler.PostToTeams | app/lambda_function.py:253-281 | a delivery is made exactly when the app id and secret are strings; it goes to the reply URL, with the message and the credentials' form body |
| Handler.LexResponse | app/lambda_function.py:153-203 | the reply is built from `post_text`'s response, else from `get_session`'s |
| Handler.Reply | app/lambda_function.py:124-131 | the reply has the six message keys and type `message`, carries the text, answers the activity id, comes from the inbound recipient and goes to the conversation |
| Handler.Refuse | app/lambda_function.py:120-151 | no Lex call; completes exactly when both credentials are strings, with the given status and text and one reply posted to the reply URL |
| Handler.Converse | app/lambda_function.py:153-250 | Lex is always called, for the AAD object id with the utterance; no Lex answer crashes; a completed run acknowledges 200 with the reply text and posts one message to the reply URL; given an answer, the run completes exactly when its card translates and both credentials are strings, and the message posted is the translated one |
| Handler.Authorise | app/lambda_function.py:110-151 | a listed tenant with the bot configured goes on to steps 5 to 8; with the bot unconfigured it gets no Lex call and 200 with the "no Lex bot" text after one reply; an unlisted tenant gets no Lex call and 401 with the refusal; a failing check crashes |
| Handler.Respond | app/lambda_function.py:46-108 | 400 exactly on a `KeyError` in step 1; any other step-1 error crashes; unsliceable credentials give 200 "not configured" with nothing posted |
| Handler.Handle | app/lambda_function.py:36-250 | status codes are 200, 400 or 401; at most one message is posted; Lex is called only with the bot configured; a completed run that called Lex answers 200 after one delivery |
| Handler.ConversationUpdateIgnored | app/lambda_function.py:43-44 | a conversation update is acknowledged with 200 "ignored", with no delivery and no Lex call |
| Handler.BadRequestExactly | app/lambda_function.py:87-94 | the 400 answer is given exactly when step 1 meets a `KeyError` after the adapter succeeded; nothing is posted |
| Handler.ReachesLex | app/lambda_function.py:36-198 | a run that calls Lex got through every earlier step: secret decoded, adapter built, not a conversation update, step 1 read, credentials sliceable, tenant listed, bot configured |
| Handler.OnlyListedTenantsReachLex | app/lambda_function.py:110-133 | a Lex call happens only for a tenant named in a string tenant list; a 401 only when the check returned false |
| Handler.UnlistedTenantRejected | app/lambda_function.py:120-133 | an unlisted tenant gets 401 and exactly one delivery carrying the refusal text, and no Lex call |
| Handler.ListedTenantReachesLex | app/lambda_function.py:110-198 | with every earlier step passed and a tenant the check accepts, a configured bot is always called |
| Handler.ListedTenantGetsReply | app/lambda_function.py:100-250 | with every earlier step passed, string credentials and an answer from Lex, a listed tenant gets a 200 with Lex's text and one posted message equal to the translated card, or the run raises when the card does not translate |
| Handler.MissingBotRefused | app/lambda_function.py:135-151 | a listed tenant without a configured bot gets 200 with the "no Lex bot" text, one delivery carrying it, and no Lex call |
| Handler.LexRequestContents | app/lambda_function.py:153-198 | Lex receives the normalised utterance, for the sender's AAD object id, with the merged session attributes |
| Handler.ChannelIdsInSession | app/lambda_function.py:61-65 | a team or channel id the activity lacks is deleted from the session attributes sent to Lex, and one it carries is sent as it is |
| Handler.RepliesAddressed | app/lambda_function.py:124-132 | every posted message goes to the reply URL, answers the activity id, comes from the inbound recipient, is addressed to the conversation, carries the acknowledged text, and is authorised with the configured credentials |
| Handler.AuthoriseAddressed | app/lambda_function.py:120-250 | steps 3 to 8 post, when they complete, exactly one reply that is addressed back to the activity |
| Handler.ReplyFromLex | app/lambda_function.py:188-250 | after a Lex call with no response the run crashes; a completed run acknowledges Lex's text and posts the translated card message |
| Handler.FallbackWhenPostTextFails | app/lambda_function.py:200-205 | if `post_text` raises and `get_session` answered without a message, the apology is acknowledged and posted |
| Handler.GreetingEndToEnd | tests/unit/test_handler.py:37-62 | with the test's secret, tenant `x` and a greeting from Lex, the run answers 200 with the greeting, after one delivery and one Lex call |

## Left out

- The JSON text of the activity and of the secret is not parsed or serialised. Both enter already parsed, and `json.dumps(body)` is stored in the session attribute `ms-teams-request-body` as the structured body.
- JSON numbers are integers only; floating point is not modelled.
- `get_secret`, Secrets Manager, `boto3` and the Lex runtime are not modelled: their answers are inputs. The Lex answers do not depend on the request. That request is recorded in the outcome.
- The two HTTP requests of `postResponseToTeams` are not modelled (token fetch, then reply POST). Their failures, including the uncaught `KeyError` on a token reply without `access_token`, are left out. A delivery records the URL, form body and message that would be sent.
- Logging is not modelled, except where building a log line raises: a string concatenation with a non-string.
- `parse_config`, the module-level client set-up, `covert_responseCard` and the module-level demo in `lex_teams_adapter.py` are not modelled: the handler never calls them.
- Whitespace for `strip` is the ASCII and C0 separator set Python uses. Unicode whitespace beyond it is not modelled.
- Mutation through aliases is modelled on values. `message.update(teamsButtons)` after the image is set is modelled by merging the finished card again. The loops over the session attributes work on a `map`, so dictionary iteration order plays no part.
- Utterance.NormalizeMentionedWord: proved for names without `<`, which is enough to place the first `</at>` after the mention.
- Delivery.AuthBodyFields: field structure proved only for app ids without `&`, since the app id is concatenated unencoded.
- Delivery.ReplyUrlInjective: proved only for conversation ids without `/`.

=== FILE: adapter.dfy ===
/**
 * The configuration record and the inbound-activity record built from
 * the parsed webhook body (`LexTeamsAdapterConfig` and `LexTeamsAdapter`).
 */
module Adapter {
  import opened Wrappers
  import opened Json
  import opened Strings

  /**
   * The configuration record. Its constructor stores whatever values it is
   * given, so each field is an arbitrary JSON value; the handler expects
   * two strings and a comma-separated string of tenant ids.
   */
  datatype AdapterConfig = AdapterConfig(msAppId: Json, clientSecret: Json, validTenantIds: Json)

  /** Why the configuration could not be built; neither is caught by the handler. */
  datatype ConfigError =
    | DecodeError    // the secret text is absent or is not JSON
    | ArgumentError  // the JSON is not an object whose keys are exactly the three parameter names

  const AppIdKey := "ms_app_id"
  const SecretKey := "client_secret"
  const TenantIdsKey := "valid_tenant_ids"

  /** The JSON object whose keyword expansion builds `c`. */
  function ConfigToJson(c: AdapterConfig): Json {
    JObj(map[AppIdKey := c.msAppId, SecretKey := c.clientSecret, TenantIdsKey := c.validTenantIds])
  }

  /**
   * `LexTeamsAdapterConfig.from_json`: `cls(**json.loads(secret))`. A
   * missing or unexpected keyword, or a non-object, is a `TypeError`; a
   * secret that does not decode is `None` here.
   */
  function ConfigFromJson(secret: Option<Json>): (r: Result<AdapterConfig, ConfigError>)
    ensures secret.None? ==> r == Failure(DecodeError)
    ensures r.Success? <==> secret.Some? && secret.value.JObj? && secret.value.fields.Keys == {AppIdKey, SecretKey, TenantIdsKey}
    ensures r.Success? ==> ConfigToJson(r.value) == secret.value
  {
    match secret
    case None => Failure(DecodeError)
    case Some(JObj(m)) =>
      if m.Keys == {AppIdKey, SecretKey, TenantIdsKey} then
        var c := AdapterConfig(m[AppIdKey], m[SecretKey], m[TenantIdsKey]);
        assert ConfigToJson(c).fields == m;
        Success(c)
      else Failure(ArgumentError)
    case Some(_) => Failure(ArgumentError)
  }

  /** Building from JSON agrees with direct construction, whatever the field values. */
  lemma ConfigFromJsonRoundTrip(c: AdapterConfig)
    ensures ConfigFromJson(Some(ConfigToJson(c))) == Success(c)
  {
    assert ConfigToJson(c).fields.Keys == {AppIdKey, SecretKey, TenantIdsKey};
  }

  /** Conversely, the only JSON that builds `c` is the object of its three fields. */
  lemma ConfigFromJsonOnlyFields(j: Json, c: AdapterConfig)
    requires ConfigFromJson(Some(j)) == Success(c)
    ensures j == ConfigToJson(c)
  {
    var m := j.fields;
    var n := ConfigToJson(c).fields;
    assert m.Keys == n.Keys;
    assert forall k :: k in m ==> m[k] == n[k];
  }

  /** The configuration equality the unit test checks, with the tenant ids given as a list. */
  lemma ConfigFromJsonExample()
    ensures ConfigFromJson(Some(JObj(map[AppIdKey := JStr("x"), SecretKey := JStr("x"), TenantIdsKey := JArr([JStr("x")])])))
         == Success(AdapterConfig(JStr("x"), JStr("x"), JArr([JStr("x")])))
  {
    ConfigFromJsonRoundTrip(AdapterConfig(JStr("x"), JStr("x"), JArr([JStr("x")])));
  }

  /**
   * The adapter record. The constructor's last two parameters are named
   * `receivedFrom` and `conversation`, but `from_json` passes the inbound
   * `conversation` object first and the inbound `from` object second, so
   * `receivedFrom` holds the conversation and `conversation` the sender.
   */
  datatype LexTeamsAdapter = LexTeamsAdapter(
    config: AdapterConfig,
    firstName: string,
    receivedMsg: Json,
    tenantId: Json,
    activityType: Json,
    receivedFrom: Json,
    conversation: Json)

  /** `name.split(" ")[0]`: the part of the name before its first space. */
  function FirstName(name: string): (first: string)
    ensures ' ' !in first
    ensures first == name || (|first| < |name| && name[..|first| + 1] == first + " ")
  {
    var pieces := Split(name, ' ');
    JoinSplit(name, ' ');
    assert |pieces| > 1 ==> Join(pieces, ' ') == pieces[0] + [' '] + Join(pieces[1..], ' ');
    pieces[0]
  }

  /** `LexTeamsAdapter.from_json`: the record built from the parsed body; every lookup error propagates. */
  function AdapterFromJson(config: AdapterConfig, body: Json): (r: Eval<LexTeamsAdapter>)
    ensures r.Val? ==> r.value.config == config
    ensures r.Val? ==>
      && HasAdapterFields(body)
      && r.value.receivedFrom == body.fields["conversation"]
      && r.value.conversation == body.fields["from"]
  {
    var from :- Field(body, "from");
    var nameValue :- Field(from, "name");
    var name :- AsString(nameValue);  // only a string has `split`
    var text :- Field(body, "text");
    var conversation :- Field(body, "conversation");
    var tenantId :- Field(conversation, "tenantId");
    var activityType :- Field(body, "type");
    Val(LexTeamsAdapter(config, FirstName(name), text, tenantId, activityType, conversation, from))
  }

  /** The body has the four values the adapter reads, `from.name` being a string. */
  predicate HasAdapterFields(body: Json) {
    && body.JObj?
    && "from" in body.fields && body.fields["from"].JObj?
    && "name" in body.fields["from"].fields && body.fields["from"].fields["name"].JStr?
    && "text" in body.fields
    && "conversation" in body.fields && body.fields["conversation"].JObj?
    && "tenantId" in body.fields["conversation"].fields
    && "type" in body.fields
  }

  /**
   * The adapter is built exactly when the four values are present, and then
   * holds them unnormalised, with the conversation and sender objects in
   * swapped positions.
   */
  lemma AdapterFields(config: AdapterConfig, body: Json)
    ensures AdapterFromJson(config, body).Val? <==> HasAdapterFields(body)
    ensures HasAdapterFields(body) ==>
      var a := AdapterFromJson(config, body).value;
      var from := body.fields["from"];
      var conversation := body.fields["conversation"];
      && a.config == config
      && a.firstName == FirstName(from.fields["name"].s)
      && a.receivedMsg == body.fields["text"]
      && a.tenantId == conversation.fields["tenantId"]
      && a.activityType == body.fields["type"]
      && a.receivedFrom == conversation
      && a.conversation == from
  {
  }

  /** The first name is the leading word: "Ada Lovelace" gives "Ada", and a name without spaces is kept whole. */
  lemma FirstNameExamples()
    ensures FirstName("Ada Lovelace") == "Ada"
    ensures FirstName("Ada") == "Ada"
    ensures FirstName(" Ada") == ""
  {
  }
}

=== FILE: delivery.dfy ===
/**
 * Posting a message back to Teams: the reply URL of the incoming activity
 * and the client-credentials form that obtains the Bot Framework token.
 * The HTTP requests themselves are not modelled; a delivery records what
 * would be sent.
 */
module Delivery {
  import opened Wrappers
  import opened Json
  import opened Strings
  import opened PercentEncoding

  const ConversationsPath := "v3/conversations/"
  const ActivitiesPath := "/activities/"

  /** The reply endpoint: the service URL, then `v3/conversations/<conversation id>/activities/<activity id>`. */
  function ReplyUrl(serviceUrl: string, conversationId: string, activityId: string): (url: string)
    ensures |url| == |serviceUrl| + |ConversationsPath| + |conversationId| + |ActivitiesPath| + |activityId|
    ensures url[..|serviceUrl|] == serviceUrl
    ensures url[|url| - |activityId|..] == activityId
  {
    serviceUrl + ConversationsPath + conversationId + ActivitiesPath + activityId
  }

  /**
   * For conversation ids without a `/`, the reply URL determines the
   * conversation and the activity it answers.
   */
  lemma ReplyUrlInjective(serviceUrl: string, conversation1: string, activity1: string,
                          conversation2: string, activity2: string)
    requires '/' !in conversation1 && '/' !in conversation2
    requires ReplyUrl(serviceUrl, conversation1, activity1) == ReplyUrl(serviceUrl, conversation2, activity2)
    ensures conversation1 == conversation2 && activity1 == activity2
  {
    UrlShapeInjective(serviceUrl + ConversationsPath, ActivitiesPath, conversation1, activity1, conversation2, activity2);
  }

  lemma UrlShapeInjective(prefix: string, middle: string, c1: string, a1: string, c2: string, a2: string)
    requires |middle| > 0 && middle[0] == '/'
    requires '/' !in c1 && '/' !in c2
    requires prefix + c1 + middle + a1 == prefix + c2 + middle + a2
    ensures c1 == c2 && a1 == a2
  {
    var rest := middle[1..];
    assert middle == ['/'] + rest;
    assert prefix + c1 + middle + a1 == prefix + (c1 + ['/'] + (rest + a1));
    assert prefix + c2 + middle + a2 == prefix + (c2 + ['/'] + (rest + a2));
    CancelPrefix(prefix, c1 + ['/'] + (rest + a1), c2 + ['/'] + (rest + a2));
    SeparatorFreePrefix(c1, rest + a1, c2, rest + a2, '/');
    CancelPrefix(rest, a1, a2);
  }

  lemma CancelPrefix(p: string, a: string, b: string)
    requires p + a == p + b
    ensures a == b
  {
    assert a == (p + a)[|p|..];
    assert b == (p + b)[|p|..];
  }

  /** Text up to the first occurrence of a separator is determined by the whole. */
  lemma SeparatorFreePrefix(c1: string, t1: string, c2: string, t2: string, sep: char)
    requires sep !in c1 && sep !in c2
    requires c1 + [sep] + t1 == c2 + [sep] + t2
    ensures c1 == c2 && t1 == t2
  {
    var w := c1 + [sep] + t1;
    FirstSeparator(c1, t1, sep);
    FirstSeparator(c2, t2, sep);
    assert |c1| == |c2|;
    assert c1 == w[..|c1|];
    assert c2 == (c2 + [sep] + t2)[..|c2|];
    assert t1 == w[|c1| + 1..];
    assert t2 == (c2 + [sep] + t2)[|c2| + 1..];
  }

  /** The first separator in `c + [sep] + t` is the one after `c`, when `c` has none. */
  lemma FirstSeparator(c: string, t: string, sep: char)
    requires sep !in c
    ensures (c + [sep] + t)[|c|] == sep
    ensures forall j :: 0 <= j < |c| ==> (c + [sep] + t)[j] != sep
  {
    assert forall j :: 0 <= j < |c| ==> (c + [sep] + t)[j] == c[j];
  }

  const GrantField := "grant_type=client_credentials"
  const ClientIdName := "client_id="
  const ClientSecretName := "client_secret="
  /** `scope=https%3A%2F%2Fapi.botframework.com%2F.default`, the Bot Framework scope, already encoded. */
  const ScopeField := "scope=" + "https%3A%2F%2F" + "api.botframework.com" + "%2F.default"

  /**
   * The form body of the token request. The client secret is percent-encoded
   * with no safe characters; the app id is inserted as it is.
   */
  function AuthBody(appId: string, clientSecret: string): (b: string)
    ensures GrantField + "&" + (ClientIdName + appId) + "&" <= b
    ensures |b| >= |ScopeField| && b[|b| - |ScopeField|..] == ScopeField
  {
    var head := GrantField + "&" + (ClientIdName + appId) + "&";
    Ends(head, ClientSecretName + Quote(clientSecret), "&", ScopeField);
    head + (ClientSecretName + Quote(clientSecret)) + "&" + ScopeField
  }

  /** The first and last parts of a concatenation. */
  lemma Ends(a: string, x: string, y: string, z: string)
    ensures a <= a + x + y + z
    ensures (a + x + y + z)[|a + x + y + z| - |z|..] == z
  {
    assert (a + x + y + z)[..|a|] == a;
  }

  /**
   * For an app id without `&`, the form has exactly the four fields grant
   * type, client id, client secret and scope, in that order; the secret's
   * field percent-decodes to the secret's UTF-8 bytes, whatever characters
   * the secret holds.
   */
  lemma AuthBodyFields(appId: string, clientSecret: string)
    requires '&' !in appId
    ensures Split(AuthBody(appId, clientSecret), '&')
         == [GrantField, ClientIdName + appId, ClientSecretName + Quote(clientSecret), ScopeField]
    ensures PercentDecode(Quote(clientSecret)) == Some(Utf8Encode(clientSecret))
  {
    ConstantFieldsFree();
    assert '&' !in ClientIdName + appId;
    assert '&' !in ClientSecretName + Quote(clientSecret);
    assert "&" == ['&'];
    FourFields(GrantField, ClientIdName + appId, ClientSecretName + Quote(clientSecret), ScopeField, '&');
    QuoteDecodes(clientSecret);
  }

  lemma ConstantFieldsFree()
    ensures '&' !in GrantField && '&' !in ClientIdName && '&' !in ClientSecretName && '&' !in ScopeField
  {
    assert '&' !in "https%3A%2F%2F";
    assert '&' !in "api.botframework.com";
    assert '&' !in "%2F.default";
  }

  /** Four separator-free fields joined by the separator split back into those fields. */
  lemma FourFields(a: string, b: string, c: string, d: string, sep: char)
    requires sep !in a && sep !in b && sep !in c && sep !in d
    ensures Split(a + [sep] + b + [sep] + c + [sep] + d, sep) == [a, b, c, d]
  {
    var cd := c + [sep] + d;
    var bcd := b + [sep] + cd;
    SplitFree(d, sep);
    SplitAfterFree(c, d, sep);
    SplitAfterFree(b, cd, sep);
    SplitAfterFree(a, bcd, sep);
    Regroup(a, b, c, d, sep);
  }

  lemma Regroup(a: string, b: string, c: string, d: string, sep: char)
    ensures a + [sep] + b + [sep] + c + [sep] + d == a + [sep] + (b + [sep] + (c + [sep] + d))
  {
  }

  /** One message posted back to Teams: where it goes, the token request that authorises it, and the message. */
  datatype Delivery = Delivery(url: string, authBody: string, message: map<string, Json>)

  /** What `postResponseToTeams` sends for a message. */
  function PostResponse(message: map<string, Json>, replyUrl: string, appId: string, clientSecret: string): Delivery {
    Delivery(replyUrl, AuthBody(appId, clientSecret), message)
  }
}

=== FILE: handler.dfy ===
/**
 * The webhook handler: one Teams activity in, one acknowledgement out,
 * with at most one message posted back to Teams and at most one utterance
 * sent to the Lex bot on the way. The secret, the Lex bot's name and
 * alias, and the answers of the two Lex calls are inputs; an uncaught
 * exception is the outcome `Crashed`.
 */
module Handler {
  import opened Wrappers
  import opened Json
  import opened Adapter
  import opened Utterance
  import opened Tenants
  import opened Session
  import opened Outbound
  import opened Delivery

  const ConversationUpdate := "conversationUpdate"
  const IgnoredText := "message type conversationUpdate - ignored"
  const MissingInformationText := "Sorry, there was missing information in the request I received. Looks like a gateway logic coding error."
  const NotConfiguredText := "Sorry, the API gateway is not configured with a Microsoft App ID and client secret."
  const UnauthorisedText := "Sorry, you must be part of an authorized domain to use this application."
  const NoBotText := "Sorry, the API gateway is not configured with an Amazon Lex bot."

  /**
   * What the handler depends on besides the activity: the decoded secret
   * (`None` when it is missing or not JSON), the bot settings, and the
   * answers of `get_session` and `post_text` (`None` when the call raised).
   */
  datatype Environment = Environment(
    secret: Option<Json>,
    botName: Option<string>,
    botAlias: Option<string>,
    getSession: Option<map<string, Json>>,
    postText: Option<map<string, Json>>)

  /** The values step 1 reads from the activity. */
  datatype Inbound = Inbound(
    text: string,
    conversation: Json,
    userName: string,
    aadObjectId: string,
    teamsTeamId: Json,
    teamsChannelId: Json,
    recipient: Json,
    replyToId: string,
    replyUrl: string,
    utterance: string)

  /**
   * The team and channel ids of a truthy `channelData` dictionary, each
   * null when missing; both null when `channelData` is absent or falsy; a
   * truthy `channelData` that is not a dictionary has no `.get` and raises.
   */
  function ChannelIds(body: Json): (r: Eval<(Json, Json)>)
    ensures !r.KeyError?
    ensures !body.JObj? ==> r == Fault
    ensures body.JObj? ==>
      var channelData := GetOrNull(body.fields, "channelData");
      && (!Truthy(channelData) ==> r == Val((JNull, JNull)))
      && (Truthy(channelData) && channelData.JObj? ==>
            r.Val?
            && r.value.0 == (if "teamsTeamId" in channelData.fields then channelData.fields["teamsTeamId"] else JNull)
            && r.value.1 == (if "teamsChannelId" in channelData.fields then channelData.fields["teamsChannelId"] else JNull))
      && (Truthy(channelData) && !channelData.JObj? ==> r == Fault)
  {
    if !body.JObj? then Fault
    else
      var channelData := GetOrNull(body.fields, "channelData");
      if !Truthy(channelData) then Val((JNull, JNull))
      else if channelData.JObj? then
        Val((GetOrNull(channelData.fields, "teamsTeamId"), GetOrNull(channelData.fields, "teamsChannelId")))
      else Fault
  }

  /**
   * Step 1, in the order the source evaluates it. The string
   * concatenations of the log lines and of the reply URL raise on a
   * non-string, which the handler does not catch.
   */
  function ReadInbound(body: Json): (r: Eval<Inbound>)
    ensures r.Val? ==> HasInboundFields(body)
    ensures r.Val? ==> r.value.utterance == NormalizeUtterance(r.value.text)
  {
    var textValue :- Field(body, "text");
    var text :- AsString(textValue);
    var conversation :- Field(body, "conversation");
    var from :- Field(body, "from");
    var nameValue :- Field(from, "name");
    var aadValue :- Field(from, "aadObjectId");
    var channelIds :- ChannelIds(body);
    var recipient :- Field(body, "recipient");
    var idValue :- Field(body, "id");
    var userName :- AsString(nameValue);
    var aadObjectId :- AsString(aadValue);
    var serviceUrlValue :- Field(body, "serviceUrl");
    var serviceUrl :- AsString(serviceUrlValue);
    var conversationIdValue :- Field(conversation, "id");
    var conversationId :- AsString(conversationIdValue);
    var id :- AsString(idValue);
    Val(Inbound(text, conversation, userName, aadObjectId, channelIds.0, channelIds.1, recipient, id,
                ReplyUrl(serviceUrl, conversationId, id), NormalizeUtterance(text)))
  }

  /** Every value step 1 reads is present and every value it concatenates is a string. */
  predicate HasInboundFields(body: Json) {
    && body.JObj?
    && "text" in body.fields && body.fields["text"].JStr?
    && "conversation" in body.fields && body.fields["conversation"].JObj?
    && "id" in body.fields["conversation"].fields && body.fields["conversation"].fields["id"].JStr?
    && "from" in body.fields && body.fields["from"].JObj?
    && "name" in body.fields["from"].fields && body.fields["from"].fields["name"].JStr?
    && "aadObjectId" in body.fields["from"].fields && body.fields["from"].fields["aadObjectId"].JStr?
    && ChannelIds(body).Val?
    && "recipient" in body.fields
    && "id" in body.fields && body.fields["id"].JStr?
    && "serviceUrl" in body.fields && body.fields["serviceUrl"].JStr?
  }

  /**
   * Step 1 succeeds exactly on such activities, and then reads the
   * utterance from the text, the reply URL from the service URL,
   * conversation id and activity id, and the rest as they are.
   */
  lemma InboundFields(body: Json)
    ensures ReadInbound(body).Val? <==> HasInboundFields(body)
    ensures HasInboundFields(body) ==>
      var f := body.fields;
      var inbound := ReadInbound(body).value;
      && inbound.text == f["text"].s
      && inbound.utterance == NormalizeUtterance(f["text"].s)
      && inbound.conversation == f["conversation"]
      && inbound.userName == f["from"].fields["name"].s
      && inbound.aadObjectId == f["from"].fields["aadObjectId"].s
      && (inbound.teamsTeamId, inbound.teamsChannelId) == ChannelIds(body).value
      && inbound.recipient == f["recipient"]
      && inbound.replyToId == f["id"].s
      && inbound.replyUrl == ReplyUrl(f["serviceUrl"].s, f["conversation"].fields["id"].s, f["id"].s)
  {
    if HasInboundFields(body) {
      InboundValues(body);
    }
  }

  lemma InboundValues(body: Json)
    requires HasInboundFields(body)
    ensures ReadInbound(body).Val?
    ensures var f := body.fields;
      var inbound := ReadInbound(body).value;
      && inbound.text == f["text"].s
      && inbound.utterance == NormalizeUtterance(f["text"].s)
      && inbound.conversation == f["conversation"]
      && inbound.userName == f["from"].fields["name"].s
      && inbound.aadObjectId == f["from"].fields["aadObjectId"].s
      && (inbound.teamsTeamId, inbound.teamsChannelId) == ChannelIds(body).value
      && inbound.recipient == f["recipient"]
      && inbound.replyToId == f["id"].s
      && inbound.replyUrl == ReplyUrl(f["serviceUrl"].s, f["conversation"].fields["id"].s, f["id"].s)
  {
    var f := body.fields;
    var from := f["from"].fields;
    assert Field(body, "text") == Val(f["text"]);
    assert Field(body, "conversation") == Val(f["conversation"]);
    assert Field(body, "from") == Val(f["from"]);
    assert Field(f["from"], "name") == Val(from["name"]);
    assert Field(f["from"], "aadObjectId") == Val(from["aadObjectId"]);
    assert Field(body, "recipient") == Val(f["recipient"]);
    assert Field(body, "id") == Val(f["id"]);
    assert Field(body, "serviceUrl") == Val(f["serviceUrl"]);
    assert Field(f["conversation"], "id") == Val(f["conversation"].fields["id"]);
    var channelIds := ChannelIds(body).value;
    assert ReadInbound(body)
        == Val(Inbound(f["text"].s, f["conversation"], from["name"].s, from["aadObjectId"].s, channelIds.0, channelIds.1,
                       f["recipient"], f["id"].s, ReplyUrl(f["serviceUrl"].s, f["conversation"].fields["id"].s, f["id"].s),
                       NormalizeUtterance(f["text"].s)));
  }

  /**
   * For an activity the adapter accepted whose text is a string, a missing
   * `aadObjectId`, `recipient` or `id` is a `KeyError`, the one failure
   * step 1 catches.
   */
  lemma MissingFieldIsKeyError(body: Json)
    requires HasAdapterFields(body) && body.fields["text"].JStr?
    requires ChannelIds(body).Val?
    requires || "aadObjectId" !in body.fields["from"].fields
             || "recipient" !in body.fields
             || "id" !in body.fields
    ensures ReadInbound(body) == KeyError
  {
  }

  /** The Microsoft app credentials after step 2: usable for slicing, or not configured. */
  datatype Credentials = Configured(appId: Json, clientSecret: Json) | NotConfigured

  /** Only a string or a list can be sliced. */
  predicate Sliceable(j: Json) {
    j.JStr? || j.JArr?
  }

  /** Step 2: the app id and secret are sliced for logging; any exception there means "not configured". */
  function ReadCredentials(config: AdapterConfig): (c: Credentials)
    ensures c.Configured? <==> Sliceable(config.msAppId) && Sliceable(config.clientSecret)
    ensures c.Configured? ==> c.appId == config.msAppId && c.clientSecret == config.clientSecret
  {
    if Sliceable(config.msAppId) && Sliceable(config.clientSecret) then Configured(config.msAppId, config.clientSecret)
    else NotConfigured
  }

  /** `postResponseToTeams`: the app id is concatenated and the secret quoted, both raising on a non-string. */
  function PostToTeams(message: map<string, Json>, replyUrl: string, credentials: Credentials): (r: Eval<Delivery>)
    requires credentials.Configured?
    ensures r.Val? <==> credentials.appId.JStr? && credentials.clientSecret.JStr?
    ensures r.Val? ==> r.value.url == replyUrl && r.value.message == message
    ensures r.Val? ==> r.value.authBody == AuthBody(credentials.appId.s, credentials.clientSecret.s)
  {
    var appId :- AsString(credentials.appId);
    var clientSecret :- AsString(credentials.clientSecret);
    Val(PostResponse(message, replyUrl, appId, clientSecret))
  }

  /** The `post_text` call. */
  datatype LexRequest = LexRequest(
    botName: string,
    botAlias: string,
    userId: string,
    sessionAttributes: map<string, Json>,
    inputText: string)

  /** The Lex response the reply is built from: `post_text`'s, else the `get_session` response still bound to the name. */
  function LexResponse(env: Environment): (r: Option<map<string, Json>>)
    ensures env.postText.Some? ==> r == env.postText
    ensures env.postText.None? ==> r == env.getSession
  {
    if env.postText.Some? then env.postText else env.getSession
  }

  /**
   * The end of a run: an acknowledgement with the messages posted and the
   * Lex request made, or an uncaught exception, possibly after the Lex call.
   */
  datatype Outcome =
    | Completed(ack: Acknowledgement, deliveries: seq<Delivery>, lexRequest: Option<LexRequest>)
    | Crashed(lexRequest: Option<LexRequest>)

  /** The message the handler posts, addressed back to the activity. */
  function Reply(adapter: LexTeamsAdapter, inbound: Inbound, text: Json): (m: map<string, Json>)
    ensures m.Keys == MessageKeys && m["type"] == JStr("message") && m["text"] == text
    ensures m["replyToId"] == JStr(inbound.replyToId) && m["from"] == JArr([inbound.recipient])
    ensures m["recipient"] == adapter.receivedFrom && m["conversation"] == inbound.conversation
  {
    BaseMessage(inbound.recipient, inbound.conversation, adapter.receivedFrom, text, JStr(inbound.replyToId))
  }

  /** A refusal posted to Teams and acknowledged with `statusCode`. */
  function Refuse(statusCode: int, text: string, adapter: LexTeamsAdapter, inbound: Inbound, credentials: Credentials): (o: Outcome)
    requires credentials.Configured?
    ensures o.lexRequest.None?
    ensures o.Completed? <==> credentials.appId.JStr? && credentials.clientSecret.JStr?
    ensures o.Completed? ==>
      && o.ack == Close(statusCode, JStr(text))
      && |o.deliveries| == 1
      && o.deliveries[0].url == inbound.replyUrl
      && o.deliveries[0].message == Reply(adapter, inbound, JStr(text))
  {
    match PostToTeams(Reply(adapter, inbound, JStr(text)), inbound.replyUrl, credentials)
    case Val(delivery) => Completed(Close(statusCode, JStr(text)), [delivery], None)
    case _ => Crashed(None)
  }

  /** Steps 5 to 8: session attributes, the Lex call, the reply with its card, and its delivery. */
  function Converse(body: Json, env: Environment, adapter: LexTeamsAdapter, inbound: Inbound, credentials: Credentials): (o: Outcome)
    requires credentials.Configured?
    requires env.botName.Some? && env.botAlias.Some?
    ensures o.lexRequest.Some?
    ensures o.lexRequest.value.userId == inbound.aadObjectId && o.lexRequest.value.inputText == inbound.utterance
    ensures LexResponse(env).None? ==> o.Crashed?
    ensures o.Completed? ==>
      && o.ack == Close(200, ReplyText(LexResponse(env).value))
      && |o.deliveries| == 1
      && o.deliveries[0].url == inbound.replyUrl
    ensures LexResponse(env).Some? ==>
      var response := LexResponse(env).value;
      var message := TranslateCard(Reply(adapter, inbound, ReplyText(response)), response);
      && (o.Completed? <==> message.Val? && credentials.appId.JStr? && credentials.clientSecret.JStr?)
      && (o.Completed? ==> o.deliveries[0].message == message.value)
  {
    var teams := TeamsAttributes(inbound.userName, inbound.aadObjectId, adapter.tenantId,
                                 inbound.teamsTeamId, inbound.teamsChannelId, body);
    var request := LexRequest(env.botName.value, env.botAlias.value, inbound.aadObjectId,
                              SessionAttributes(env.getSession, teams), inbound.utterance);
    match LexResponse(env)
    case None => Crashed(Some(request))
    case Some(response) =>
      var text := ReplyText(response);
      match TranslateCard(Reply(adapter, inbound, text), response)
      case Val(message) =>
        (match PostToTeams(message, inbound.replyUrl, credentials)
         case Val(delivery) => Completed(Close(200, text), [delivery], Some(request))
         case _ => Crashed(Some(request)))
      case _ => Crashed(Some(request))
  }

  /** Steps 3 and 4: the tenant check, then the bot settings. */
  function Authorise(body: Json, env: Environment, adapter: LexTeamsAdapter, inbound: Inbound, credentials: Credentials): (o: Outcome)
    requires credentials.Configured?
    ensures o.lexRequest.Some? ==>
      TenantCheck(adapter.tenantId, adapter.config.validTenantIds) == Val(true) && env.botName.Some? && env.botAlias.Some?
    ensures TenantCheck(adapter.tenantId, adapter.config.validTenantIds) == Val(false) ==>
      o.lexRequest.None? && (o.Completed? ==> o.ack == Close(401, JStr(UnauthorisedText)))
    ensures !TenantCheck(adapter.tenantId, adapter.config.validTenantIds).Val? ==> o == Crashed(None)
    ensures TenantCheck(adapter.tenantId, adapter.config.validTenantIds) == Val(true) && env.botName.Some? && env.botAlias.Some? ==>
      o == Converse(body, env, adapter, inbound, credentials)
    ensures TenantCheck(adapter.tenantId, adapter.config.validTenantIds) == Val(true) && (env.botName.None? || env.botAlias.None?) ==>
      && o.lexRequest.None?
      && (o.Completed? ==> o.ack == Close(200, JStr(NoBotText)) && |o.deliveries| == 1)
  {
    match TenantCheck(adapter.tenantId, adapter.config.validTenantIds)
    case Val(true) =>
      if env.botName.None? || env.botAlias.None? then Refuse(200, NoBotText, adapter, inbound, credentials)
      else Converse(body, env, adapter, inbound, credentials)
    case Val(false) => Refuse(401, UnauthorisedText, adapter, inbound, credentials)
    case _ => Crashed(None)
  }

  /** Steps 1 and 2, once the adapter is built and the activity is not a conversation update. */
  function Respond(body: Json, env: Environment, adapter: LexTeamsAdapter): (o: Outcome)
    ensures ReadInbound(body).KeyError? <==> o == Completed(Close(400, JStr(MissingInformationText)), [], None)
    ensures ReadInbound(body).Fault? ==> o == Crashed(None)
    ensures ReadInbound(body).Val? && ReadCredentials(adapter.config).NotConfigured? ==>
      o == Completed(Close(200, JStr(NotConfiguredText)), [], None)
  {
    match ReadInbound(body)
    case KeyError => Completed(Close(400, JStr(MissingInformationText)), [], None)
    case Fault => Crashed(None)
    case Val(inbound) =>
      match ReadCredentials(adapter.config)
      case NotConfigured => Completed(Close(200, JStr(NotConfiguredText)), [], None)
      case Configured(_, _) => Authorise(body, env, adapter, inbound, ReadCredentials(adapter.config))
  }

  /** `lambda_handler` on an activity body already parsed from JSON. */
  function Handle(body: Json, env: Environment): (o: Outcome)
    ensures o.Completed? ==> o.ack.statusCode in {200, 400, 401}
    ensures o.Completed? ==> |o.deliveries| <= 1
    ensures o.lexRequest.Some? ==> env.botName.Some? && env.botAlias.Some?
    ensures o.Completed? && o.lexRequest.Some? ==> o.ack.statusCode == 200 && |o.deliveries| == 1
  {
    match ConfigFromJson(env.secret)
    case Failure(_) => Crashed(None)
    case Success(config) =>
      match AdapterFromJson(config, body)
      case Val(adapter) =>
        if adapter.activityType == JStr(ConversationUpdate) then Completed(Close(200, JStr(IgnoredText)), [], None)
        else Respond(body, env, adapter)
      case _ => Crashed(None)
  }

  /** The configuration decoded from the secret, for stating properties of a run. */
  function ConfigOf(env: Environment): AdapterConfig
    requires ConfigFromJson(env.secret).Success?
  {
    ConfigFromJson(env.secret).value
  }

  /** The tenant the activity's conversation names. */
  function TenantOf(body: Json): Json
    requires HasAdapterFields(body)
  {
    body.fields["conversation"].fields["tenantId"]
  }

  /** A conversation update is acknowledged and nothing else happens. */
  lemma ConversationUpdateIgnored(body: Json, env: Environment)
    requires ConfigFromJson(env.secret).Success?
    requires HasAdapterFields(body) && body.fields["type"] == JStr(ConversationUpdate)
    ensures Handle(body, env) == Completed(Close(200, JStr(IgnoredText)), [], None)
  {
    AdapterFields(ConfigOf(env), body);
  }

  /**
   * The 400 acknowledgement is given exactly when step 1 meets a missing
   * key in an activity the adapter accepted, and nothing is posted then.
   */
  lemma BadRequestExactly(body: Json, env: Environment)
    ensures var o := Handle(body, env);
      o.Completed? && o.ack.statusCode == 400
      <==> && ConfigFromJson(env.secret).Success?
           && HasAdapterFields(body)
           && body.fields["type"] != JStr(ConversationUpdate)
           && ReadInbound(body) == KeyError
    ensures var o := Handle(body, env);
      o.Completed? && o.ack.statusCode == 400 ==> o == Completed(Close(400, JStr(MissingInformationText)), [], None)
  {
    if ConfigFromJson(env.secret).Success? {
      AdapterFields(ConfigOf(env), body);
    }
  }

  /**
   * A run that calls Lex got through every earlier step: the secret and
   * the activity were read, the credentials can be sliced, the tenant is
   * listed and the bot is configured; the rest of the run is `Converse`.
   */
  lemma ReachesLex(body: Json, env: Environment)
    requires Handle(body, env).lexRequest.Some?
    ensures ConfigFromJson(env.secret).Success?
    ensures AdapterFromJson(ConfigOf(env), body).Val?
    ensures AdapterFromJson(ConfigOf(env), body).value.activityType != JStr(ConversationUpdate)
    ensures ReadInbound(body).Val?
    ensures ReadCredentials(ConfigOf(env)).Configured?
    ensures TenantCheck(AdapterFromJson(ConfigOf(env), body).value.tenantId, ConfigOf(env).validTenantIds) == Val(true)
    ensures env.botName.Some? && env.botAlias.Some?
    ensures Handle(body, env)
         == Converse(body, env, AdapterFromJson(ConfigOf(env), body).value, ReadInbound(body).value, ReadCredentials(ConfigOf(env)))
  {
    HandleReachesRespond(body, env);
    var config := ConfigOf(env);
    var adapter := AdapterFromJson(config, body).value;
    RespondReachesLex(body, env, adapter);
    AuthoriseReachesLex(body, env, adapter, ReadInbound(body).value, ReadCredentials(config));
  }

  lemma HandleReachesRespond(body: Json, env: Environment)
    requires Handle(body, env).lexRequest.Some?
    ensures ConfigFromJson(env.secret).Success?
    ensures AdapterFromJson(ConfigOf(env), body).Val?
    ensures AdapterFromJson(ConfigOf(env), body).value.activityType != JStr(ConversationUpdate)
    ensures Handle(body, env) == Respond(body, env, AdapterFromJson(ConfigOf(env), body).value)
  {
  }

  lemma RespondReachesLex(body: Json, env: Environment, adapter: LexTeamsAdapter)
    ensures Respond(body, env, adapter).lexRequest.Some? ==>
      && ReadInbound(body).Val?
      && ReadCredentials(adapter.config).Configured?
      && Respond(body, env, adapter)
         == Authorise(body, env, adapter, ReadInbound(body).value, ReadCredentials(adapter.config))
  {
  }

  lemma AuthoriseReachesLex(body: Json, env: Environment, adapter: LexTeamsAdapter, inbound: Inbound, credentials: Credentials)
    requires credentials.Configured?
    requires Authorise(body, env, adapter, inbound, credentials).lexRequest.Some?
    ensures TenantCheck(adapter.tenantId, adapter.config.validTenantIds) == Val(true)
    ensures env.botName.Some? && env.botAlias.Some?
    ensures Authorise(body, env, adapter, inbound, credentials) == Converse(body, env, adapter, inbound, credentials)
  {
  }

  /**
   * No utterance reaches Lex unless the secret's tenant list is a string
   * naming the conversation's tenant; a 401 is given only when the list is
   * usable and does not name it.
   */
  lemma OnlyListedTenantsReachLex(body: Json, env: Environment)
    ensures Handle(body, env).lexRequest.Some? ==>
      && ConfigFromJson(env.secret).Success?
      && HasAdapterFields(body)
      && ConfigOf(env).validTenantIds.JStr?
      && IsListedTenant(TenantOf(body), ConfigOf(env).validTenantIds.s)
    ensures var o := Handle(body, env);
      o.Completed? && o.ack.statusCode == 401 ==>
      && ConfigFromJson(env.secret).Success?
      && HasAdapterFields(body)
      && TenantCheck(TenantOf(body), ConfigOf(env).validTenantIds) == Val(false)
  {
    if Handle(body, env).lexRequest.Some? {
      ReachesLex(body, env);
      AdapterFields(ConfigOf(env), body);
    } else if ConfigFromJson(env.secret).Success? {
      AdapterFields(ConfigOf(env), body);
    }
  }

  /**
   * The utterance sent to Lex is the normalised text, for the sender's
   * Azure AD object id, with the fetched session attributes overlaid by the
   * Teams-derived ones.
   */
  lemma LexRequestContents(body: Json, env: Environment)
    ensures Handle(body, env).lexRequest.Some? ==>
      && HasAdapterFields(body)
      && HasInboundFields(body)
      && var f := body.fields;
         var aadObjectId := f["from"].fields["aadObjectId"].s;
         var userName := f["from"].fields["name"].s;
         var channelIds := ChannelIds(body).value;
         var teams := TeamsAttributes(userName, aadObjectId, TenantOf(body), channelIds.0, channelIds.1, body);
         Handle(body, env).lexRequest.value
         == LexRequest(env.botName.value, env.botAlias.value, aadObjectId,
                       SessionAttributes(env.getSession, teams), NormalizeUtterance(f["text"].s))
  {
    if Handle(body, env).lexRequest.Some? {
      ReachesLex(body, env);
      AdapterFields(ConfigOf(env), body);
      InboundFields(body);
    }
  }

  /**
   * The session attributes `session` carry the activity's team and channel
   * ids: an id the activity does not carry (no truthy `channelData`, or no
   * such key in it) is absent, and one it does carry is present as it is.
   */
  predicate ChannelIdsSent(body: Json, session: map<string, Json>)
    requires body.JObj?
  {
    var channelData := GetOrNull(body.fields, "channelData");
    && (!Truthy(channelData) ==> "teamsTeamId" !in session && "teamsChannelId" !in session)
    && (Truthy(channelData) ==>
          && channelData.JObj?
          && ("teamsTeamId" !in channelData.fields ==> "teamsTeamId" !in session)
          && ("teamsChannelId" !in channelData.fields ==> "teamsChannelId" !in session)
          && ("teamsTeamId" in channelData.fields && channelData.fields["teamsTeamId"] != JNull ==>
                "teamsTeamId" in session && session["teamsTeamId"] == channelData.fields["teamsTeamId"])
          && ("teamsChannelId" in channelData.fields && channelData.fields["teamsChannelId"] != JNull ==>
                "teamsChannelId" in session && session["teamsChannelId"] == channelData.fields["teamsChannelId"]))
  }

  /**
   * A team or channel id missing from the activity is deleted from the
   * session attributes sent to Lex, even when the stored session has one;
   * an id it carries is sent as it is.
   */
  lemma ChannelIdsInSession(body: Json, env: Environment)
    ensures Handle(body, env).lexRequest.Some? ==>
      body.JObj? && ChannelIdsSent(body, Handle(body, env).lexRequest.value.sessionAttributes)
  {
    if Handle(body, env).lexRequest.Some? {
      LexRequestContents(body, env);
      var f := body.fields;
      var channelIds := ChannelIds(body).value;
      ChannelIdsInAttributes(body, env.getSession, f["from"].fields["name"].s, f["from"].fields["aadObjectId"].s, TenantOf(body));
    }
  }

  /** The same, for the merge of any fetched session with the activity's Teams attributes. */
  lemma ChannelIdsInAttributes(body: Json, getSession: Option<map<string, Json>>,
                               userName: string, aadObjectId: string, tenantId: Json)
    requires ChannelIds(body).Val?
    ensures body.JObj?
    ensures ChannelIdsSent(body, SessionAttributes(getSession,
      TeamsAttributes(userName, aadObjectId, tenantId, ChannelIds(body).value.0, ChannelIds(body).value.1, body)))
  {
    var channelIds := ChannelIds(body).value;
    var teams := TeamsAttributes(userName, aadObjectId, tenantId, channelIds.0, channelIds.1, body);
    assert teams["teamsTeamId"] == channelIds.0 && teams["teamsChannelId"] == channelIds.1;
    SessionAttributesSpec(getSession, teams);
  }

  /**
   * Every message posted goes to the activity's reply URL, answers the
   * activity's id, comes from the activity's recipient and is addressed
   * to its conversation; its text is the acknowledged text, and the token
   * request carries the configured credentials.
   */
  lemma RepliesAddressed(body: Json, env: Environment)
    ensures var o := Handle(body, env);
      o.Completed? ==> forall d :: d in o.deliveries ==>
        && ConfigFromJson(env.secret).Success?
        && HasInboundFields(body)
        && var f := body.fields;
           var config := ConfigOf(env);
           && d.url == ReplyUrl(f["serviceUrl"].s, f["conversation"].fields["id"].s, f["id"].s)
           && AnswersActivity(d.message, body)
           && Field(o.ack.body, "text") == Val(d.message["text"])
           && config.msAppId.JStr? && config.clientSecret.JStr?
           && d.authBody == AuthBody(config.msAppId.s, config.clientSecret.s)
  {
    var o := Handle(body, env);
    if o.Completed? && |o.deliveries| > 0 {
      var config := ConfigOf(env);
      var adapter := AdapterFromJson(config, body).value;
      assert o == Respond(body, env, adapter);
      var inbound := ReadInbound(body).value;
      var credentials := ReadCredentials(config);
      assert credentials.Configured?;
      assert o == Authorise(body, env, adapter, inbound, credentials);
      AuthoriseAddressed(body, env, adapter, inbound, credentials);
      var d := o.deliveries[0];
      AddressedAnswers(body, adapter, inbound, d.message);
    }
  }

  /** A message addressed back through the adapter and step 1's values answers the activity itself. */
  lemma AddressedAnswers(body: Json, adapter: LexTeamsAdapter, inbound: Inbound, message: map<string, Json>)
    requires AdapterFromJson(adapter.config, body) == Val(adapter)
    requires ReadInbound(body) == Val(inbound)
    requires AddressedTo(message, adapter, inbound)
    ensures HasInboundFields(body) && AnswersActivity(message, body)
    ensures var f := body.fields;
      inbound.replyUrl == ReplyUrl(f["serviceUrl"].s, f["conversation"].fields["id"].s, f["id"].s)
  {
    InboundFields(body);
  }

  /**
   * A message of type "message" answering the activity's id, sent from the
   * activity's recipient (as a one-element list) to its conversation.
   */
  predicate AnswersActivity(message: map<string, Json>, body: Json)
    requires HasInboundFields(body)
  {
    var f := body.fields;
    && "type" in message && message["type"] == JStr("message")
    && "from" in message && message["from"] == JArr([f["recipient"]])
    && "conversation" in message && message["conversation"] == f["conversation"]
    && "recipient" in message && message["recipient"] == f["conversation"]
    && "replyToId" in message && message["replyToId"] == f["id"]
    && "text" in message
  }

  /** The message carries the base fields addressed back to the activity. */
  predicate AddressedTo(message: map<string, Json>, adapter: LexTeamsAdapter, inbound: Inbound) {
    && "type" in message && message["type"] == JStr("message")
    && "from" in message && message["from"] == JArr([inbound.recipient])
    && "conversation" in message && message["conversation"] == inbound.conversation
    && "recipient" in message && message["recipient"] == adapter.receivedFrom
    && "replyToId" in message && message["replyToId"] == JStr(inbound.replyToId)
    && "text" in message
  }

  /** A run that posts exactly one message addressed back to the activity and acknowledges its text. */
  predicate PostsOneReply(o: Outcome, adapter: LexTeamsAdapter, inbound: Inbound, credentials: Credentials)
    requires credentials.Configured?
  {
    o.Completed? ==>
      && |o.deliveries| == 1
      && var d := o.deliveries[0];
         && AddressedTo(d.message, adapter, inbound)
         && d.url == inbound.replyUrl
         && Field(o.ack.body, "text") == Val(d.message["text"])
         && credentials.appId.JStr? && credentials.clientSecret.JStr?
         && d.authBody == AuthBody(credentials.appId.s, credentials.clientSecret.s)
  }

  /** Whatever steps 3 to 8 post is one message addressed back to the activity, its text acknowledged. */
  lemma AuthoriseAddressed(body: Json, env: Environment, adapter: LexTeamsAdapter, inbound: Inbound, credentials: Credentials)
    requires credentials.Configured?
    ensures PostsOneReply(Authorise(body, env, adapter, inbound, credentials), adapter, inbound, credentials)
  {
    match TenantCheck(adapter.tenantId, adapter.config.validTenantIds)
    case Val(true) =>
      if env.botName.None? || env.botAlias.None? {
        RefuseAddressed(200, NoBotText, adapter, inbound, credentials);
      } else {
        ConverseAddressed(body, env, adapter, inbound, credentials);
      }
    case Val(false) =>
      RefuseAddressed(401, UnauthorisedText, adapter, inbound, credentials);
    case _ =>
  }

  lemma RefuseAddressed(statusCode: int, text: string, adapter: LexTeamsAdapter, inbound: Inbound, credentials: Credentials)
    requires credentials.Configured?
    ensures PostsOneReply(Refuse(statusCode, text, adapter, inbound, credentials), adapter, inbound, credentials)
  {
  }

  lemma ConverseAddressed(body: Json, env: Environment, adapter: LexTeamsAdapter, inbound: Inbound, credentials: Credentials)
    requires credentials.Configured?
    requires env.botName.Some? && env.botAlias.Some?
    ensures PostsOneReply(Converse(body, env, adapter, inbound, credentials), adapter, inbound, credentials)
  {
    if LexResponse(env).Some? {
      var response := LexResponse(env).value;
      var base := Reply(adapter, inbound, ReplyText(response));
      var card := TranslateCard(base, response);
      if card.Val? {
        CardAddressed(adapter, inbound, response);
        var post := PostToTeams(card.value, inbound.replyUrl, credentials);
        if post.Val? {
          var o := Converse(body, env, adapter, inbound, credentials);
          assert o.Completed? && o.ack == Close(200, ReplyText(response)) && o.deliveries == [post.value];
        }
      }
    }
  }

  /** Translating the Lex card keeps the reply addressed to the activity and its text Lex's. */
  lemma CardAddressed(adapter: LexTeamsAdapter, inbound: Inbound, response: map<string, Json>)
    ensures var card := TranslateCard(Reply(adapter, inbound, ReplyText(response)), response);
      card.Val? ==> AddressedTo(card.value, adapter, inbound) && card.value["text"] == ReplyText(response)
  {
    var base := Reply(adapter, inbound, ReplyText(response));
    assert AddressedTo(base, adapter, inbound);
  }

  /**
   * After a Lex call the reply is built from `post_text`'s response, else
   * from `get_session`'s; with neither the handler raises. The text
   * acknowledged is Lex's message and the message posted is the base
   * message with the response card translated.
   */
  lemma ReplyFromLex(body: Json, env: Environment)
    ensures var o := Handle(body, env);
      o.lexRequest.Some? && LexResponse(env).None? ==> o.Crashed?
    ensures var o := Handle(body, env);
      o.Completed? && o.lexRequest.Some? ==>
        && LexResponse(env).Some?
        && HasInboundFields(body)
        && var response := LexResponse(env).value;
           var f := body.fields;
           var message := BaseMessage(f["recipient"], f["conversation"], f["conversation"], ReplyText(response), f["id"]);
           && o.ack == Close(200, ReplyText(response))
           && TranslateCard(message, response) == Val(o.deliveries[0].message)
  {
    if Handle(body, env).lexRequest.Some? {
      ReachesLex(body, env);
      AdapterFields(ConfigOf(env), body);
      InboundFields(body);
    }
  }

  /**
   * When `post_text` raises but `get_session` answered without a message or
   * card, the fixed apology is both acknowledged and posted.
   */
  lemma FallbackWhenPostTextFails(body: Json, env: Environment)
    requires env.postText.None? && env.getSession.Some?
    requires "message" !in env.getSession.value && "responseCard" !in env.getSession.value
    requires ConfigFromJson(env.secret).Success?
    requires ConfigOf(env).msAppId.JStr? && ConfigOf(env).clientSecret.JStr?
    ensures Handle(body, env).lexRequest.Some? ==>
      && Handle(body, env).Completed?
      && Handle(body, env).ack == Close(200, JStr(NoResponseText))
      && |Handle(body, env).deliveries| == 1
      && "text" in Handle(body, env).deliveries[0].message
      && Handle(body, env).deliveries[0].message["text"] == JStr(NoResponseText)
  {
    if Handle(body, env).lexRequest.Some? {
      ReachesLex(body, env);
      ReplyFromLex(body, env);
      RepliesAddressed(body, env);
    }
  }

  const Greeting := "Hi there, what can I do for you today?"

  /** The secret the handler's unit test supplies: app id and secret `x`, and the single tenant `x`. */
  function TestSecret(): Json {
    JObj(map[AppIdKey := JStr("x"), SecretKey := JStr("x"), TenantIdsKey := JStr("x")])
  }

  /**
   * End to end: a message activity from tenant `x`, with the bot configured
   * and Lex answering with a greeting, is acknowledged with status 200 and
   * the greeting, after one delivery and one Lex call.
   */
  lemma GreetingEndToEnd(body: Json, botName: string, botAlias: string, getSession: Option<map<string, Json>>)
    requires HasAdapterFields(body) && HasInboundFields(body)
    requires body.fields["type"] != JStr(ConversationUpdate)
    requires TenantOf(body) == JStr("x")
    ensures var o := Handle(body, Environment(Some(TestSecret()), Some(botName), Some(botAlias), getSession,
                                              Some(map["message" := JStr(Greeting)])));
      && o.Completed?
      && o.ack == Close(200, JStr(Greeting))
      && |o.deliveries| == 1
      && "text" in o.deliveries[0].message && o.deliveries[0].message["text"] == JStr(Greeting)
      && o.lexRequest.Some?
  {
    var response := map["message" := JStr(Greeting)];
    var env := Environment(Some(TestSecret()), Some(botName), Some(botAlias), getSession, Some(response));
    var config := AdapterConfig(JStr("x"), JStr("x"), JStr("x"));
    AdapterFields(config, body);
    InboundFields(body);
    TestRunConverses(body, env, AdapterFromJson(config, body).value, ReadInbound(body).value);
    var adapter := AdapterFromJson(config, body).value;
    var inbound := ReadInbound(body).value;
    var credentials := Configured(JStr("x"), JStr("x"));
    assert LexResponse(env) == Some(response);
    assert ReplyText(response) == JStr(Greeting);
    var base := Reply(adapter, inbound, JStr(Greeting));
    assert TranslateCard(base, response) == Val(base);
    assert PostToTeams(base, inbound.replyUrl, credentials).Val?;
    ConverseAddressed(body, env, adapter, inbound, credentials);
  }

  /** With the test's secret and a configured bot, a message from tenant `x` reaches steps 5 to 8. */
  lemma TestRunConverses(body: Json, env: Environment, adapter: LexTeamsAdapter, inbound: Inbound)
    requires env.secret == Some(TestSecret()) && env.botName.Some? && env.botAlias.Some?
    requires AdapterFromJson(AdapterConfig(JStr("x"), JStr("x"), JStr("x")), body) == Val(adapter)
    requires adapter.activityType != JStr(ConversationUpdate) && adapter.tenantId == JStr("x")
    requires ReadInbound(body) == Val(inbound)
    ensures Handle(body, env) == Converse(body, env, adapter, inbound, Configured(JStr("x"), JStr("x")))
  {
    var config := AdapterConfig(JStr("x"), JStr("x"), JStr("x"));
    TestSecretConfig();
    var credentials := ReadCredentials(config);
    assert credentials == Configured(JStr("x"), JStr("x"));
    assert Handle(body, env) == Respond(body, env, adapter);
    assert Respond(body, env, adapter) == Authorise(body, env, adapter, inbound, credentials);
  }

  /** The test's secret decodes to app id, secret and tenant list `x`, and that list names tenant `x`. */
  lemma TestSecretConfig()
    ensures ConfigFromJson(Some(TestSecret())) == Success(AdapterConfig(JStr("x"), JStr("x"), JStr("x")))
    ensures TenantCheck(JStr("x"), JStr("x")) == Val(true)
  {
    var config := AdapterConfig(JStr("x"), JStr("x"), JStr("x"));
    assert TestSecret() == ConfigToJson(config);
    ConfigFromJsonRoundTrip(config);
    CheckAgainstList("x", ["x"]);
    assert Strings.Join(["x"], ',') == "x";
  }

  /**
   * A message activity from a tenant the configured list does not name is
   * refused with 401, after exactly one message carrying the refusal is
   * posted back, and nothing is sent to Lex.
   */
  lemma UnlistedTenantRejected(body: Json, env: Environment)
    requires ConfigFromJson(env.secret).Success?
    requires ConfigOf(env).msAppId.JStr? && ConfigOf(env).clientSecret.JStr?
    requires HasAdapterFields(body) && HasInboundFields(body)
    requires body.fields["type"] != JStr(ConversationUpdate)
    requires ConfigOf(env).validTenantIds.JStr? && !IsListedTenant(TenantOf(body), ConfigOf(env).validTenantIds.s)
    ensures var o := Handle(body, env);
      && o.Completed?
      && o.ack == Close(401, JStr(UnauthorisedText))
      && |o.deliveries| == 1
      && "text" in o.deliveries[0].message && o.deliveries[0].message["text"] == JStr(UnauthorisedText)
      && o.lexRequest.None?
  {
    var config := ConfigOf(env);
    AdapterFields(config, body);
    InboundFields(body);
    var adapter := AdapterFromJson(config, body).value;
    var inbound := ReadInbound(body).value;
    var credentials := ReadCredentials(config);
    assert Handle(body, env) == Authorise(body, env, adapter, inbound, credentials);
    assert TenantCheck(adapter.tenantId, config.validTenantIds) == Val(false);
    RefuseAddressed(401, UnauthorisedText, adapter, inbound, credentials);
  }

  /**
   * Conversely, an activity that passes every earlier step — decodable
   * secret, readable activity, not a conversation update, sliceable
   * credentials, a tenant the tenant check accepts — reaches Lex once the
   * bot is configured.
   */
  lemma ListedTenantReachesLex(body: Json, env: Environment)
    requires ConfigFromJson(env.secret).Success?
    requires Sliceable(ConfigOf(env).msAppId) && Sliceable(ConfigOf(env).clientSecret)
    requires HasAdapterFields(body) && HasInboundFields(body)
    requires body.fields["type"] != JStr(ConversationUpdate)
    requires TenantCheck(TenantOf(body), ConfigOf(env).validTenantIds) == Val(true)
    requires env.botName.Some? && env.botAlias.Some?
    ensures Handle(body, env).lexRequest.Some?
  {
    var config := ConfigOf(env);
    AdapterFields(config, body);
    InboundFields(body);
    var adapter := AdapterFromJson(config, body).value;
    HandleReachesAuthorise(body, env, adapter, ReadInbound(body).value);
  }

  /**
   * A listed tenant whose bot name or alias is not configured gets the
   * "not configured with an Amazon Lex bot" answer with status 200, after
   * that text is posted back, and nothing goes to Lex.
   */
  lemma MissingBotRefused(body: Json, env: Environment)
    requires ConfigFromJson(env.secret).Success?
    requires ConfigOf(env).msAppId.JStr? && ConfigOf(env).clientSecret.JStr?
    requires HasAdapterFields(body) && HasInboundFields(body)
    requires body.fields["type"] != JStr(ConversationUpdate)
    requires TenantCheck(TenantOf(body), ConfigOf(env).validTenantIds) == Val(true)
    requires env.botName.None? || env.botAlias.None?
    ensures var o := Handle(body, env);
      && o.Completed?
      && o.ack == Close(200, JStr(NoBotText))
      && |o.deliveries| == 1
      && "text" in o.deliveries[0].message && o.deliveries[0].message["text"] == JStr(NoBotText)
      && o.lexRequest.None?
  {
    var config := ConfigOf(env);
    AdapterFields(config, body);
    InboundFields(body);
    var adapter := AdapterFromJson(config, body).value;
    var inbound := ReadInbound(body).value;
    var credentials := ReadCredentials(config);
    HandleReachesAuthorise(body, env, adapter, inbound);
    assert Authorise(body, env, adapter, inbound, credentials) == Refuse(200, NoBotText, adapter, inbound, credentials);
    RefuseAddressed(200, NoBotText, adapter, inbound, credentials);
  }

  /** A run whose secret, adapter, step 1 and credentials all succeed is decided by steps 3 to 8. */
  lemma HandleReachesAuthorise(body: Json, env: Environment, adapter: LexTeamsAdapter, inbound: Inbound)
    requires ConfigFromJson(env.secret).Success?
    requires AdapterFromJson(ConfigOf(env), body) == Val(adapter)
    requires adapter.activityType != JStr(ConversationUpdate)
    requires ReadInbound(body) == Val(inbound)
    requires ReadCredentials(ConfigOf(env)).Configured?
    ensures Handle(body, env) == Authorise(body, env, adapter, inbound, ReadCredentials(ConfigOf(env)))
  {
    assert Handle(body, env) == Respond(body, env, adapter);
  }

  /**
   * Steps 5 to 8 complete for a listed tenant whenever Lex answers, the
   * answer's card translates and both credentials are strings: the reply
   * acknowledged is Lex's text and the message posted is the translated
   * one. If the card does not translate, the run raises.
   */
  lemma ListedTenantGetsReply(body: Json, env: Environment)
    requires ConfigFromJson(env.secret).Success?
    requires ConfigOf(env).msAppId.JStr? && ConfigOf(env).clientSecret.JStr?
    requires HasAdapterFields(body) && HasInboundFields(body)
    requires body.fields["type"] != JStr(ConversationUpdate)
    requires TenantCheck(TenantOf(body), ConfigOf(env).validTenantIds) == Val(true)
    requires env.botName.Some? && env.botAlias.Some?
    requires LexResponse(env).Some?
    ensures AdapterFromJson(ConfigOf(env), body).Val? && ReadInbound(body).Val?
    ensures var response := LexResponse(env).value;
      var message := TranslateCard(Reply(AdapterFromJson(ConfigOf(env), body).value, ReadInbound(body).value,
                                         ReplyText(response)), response);
      var o := Handle(body, env);
      && (message.Val? ==>
            && o.Completed?
            && o.ack == Close(200, ReplyText(response))
            && |o.deliveries| == 1
            && o.deliveries[0].message == message.value)
      && (!message.Val? ==> o.Crashed?)
  {
    var config := ConfigOf(env);
    AdapterFields(config, body);
    InboundFields(body);
    var adapter := AdapterFromJson(config, body).value;
    var inbound := ReadInbound(body).value;
    HandleReachesAuthorise(body, env, adapter, inbound);
  }
}

=== FILE: json.dfy ===
/**
 * Already-parsed JSON values, and the outcomes of evaluating the Python
 * dictionary and list accesses the handler performs on them.
 */
module Json {

  datatype Json =
    | JNull
    | JBool(b: bool)
    | JNum(n: int)
    | JStr(s: string)
    | JArr(items: seq<Json>)
    | JObj(fields: map<string, Json>)

  /**
   * The outcome of evaluating a Python expression: a value, a raised
   * `KeyError` (the exception the handler catches), or any other raised
   * exception (`TypeError`, `IndexError`, `AttributeError`, `NameError`),
   * which the handler does not catch.
   */
  datatype Eval<+T> = Val(value: T) | KeyError | Fault {
    predicate IsFailure() {
      !Val?
    }

    function PropagateFailure<U>(): Eval<U>
      requires !Val?
    {
      if KeyError? then KeyError else Fault
    }

    function Extract(): T
      requires Val?
    {
      value
    }
  }

  /** `j[key]`: a dictionary lookup; subscripting anything else by a string raises `TypeError`. */
  function Field(j: Json, key: string): Eval<Json> {
    match j
    case JObj(m) => if key in m then Val(m[key]) else KeyError
    case _ => Fault
  }

  /**
   * `j[0]`: the first element of a list or the first character of a string
   * (`IndexError` when empty); on a dictionary a `KeyError`, as JSON keys are strings.
   */
  function First(j: Json): Eval<Json> {
    match j
    case JArr(a) => if |a| > 0 then Val(a[0]) else Fault
    case JStr(s) => if |s| > 0 then Val(JStr([s[0]])) else Fault
    case JObj(_) => KeyError
    case _ => Fault
  }

  /** `d.get(key, None)` on a dictionary `d`. */
  function GetOrNull(m: map<string, Json>, key: string): Json {
    if key in m then m[key] else JNull
  }

  /** `str + j` with a string on the left: anything but a string raises `TypeError`. */
  function AsString(j: Json): Eval<string> {
    match j
    case JStr(s) => Val(s)
    case _ => Fault
  }

  /** Python truthiness of a JSON value (`if x:`). */
  predicate Truthy(j: Json) {
    match j
    case JNull => false
    case JBool(b) => b
    case JNum(n) => n != 0
    case JStr(s) => s != ""
    case JArr(a) => a != []
    case JObj(m) => m != map[]
  }
}

=== FILE: outbound.dfy ===
/**
 * The outbound side: the reply text, the message posted back to Teams, the
 * translation of a Lex response card into a Teams thumbnail card, and the
 * acknowledgement returned to the caller.
 */
module Outbound {
  import opened Wrappers
  import opened Json

  const NoResponseText := "Sorry, there was no response from the Amazon Lex bot."
  const ThumbnailContentType := "application/vnd.microsoft.card.thumbnail"

  /** `response.get('message', ...)`: Lex's message when the key is present, whatever its value, else the fixed apology. */
  function ReplyText(response: map<string, Json>): (text: Json)
    ensures "message" in response ==> text == response["message"]
    ensures "message" !in response ==> text == JStr(NoResponseText)
  {
    if "message" in response then response["message"] else JStr(NoResponseText)
  }

  /** The keys of the message posted back before any card is added. */
  const MessageKeys: set<string> := {"type", "from", "conversation", "recipient", "text", "replyToId"}

  /**
   * The message posted back. `from` is a one-element tuple (a JSON list)
   * because of a trailing comma where the inbound recipient is read.
   */
  function BaseMessage(recipient: Json, conversation: Json, receivedFrom: Json, text: Json, replyToId: Json): (m: map<string, Json>)
    ensures m.Keys == MessageKeys && m["type"] == JStr("message")
    ensures m["from"] == JArr([recipient]) && m["recipient"] == receivedFrom && m["conversation"] == conversation
    ensures m["text"] == text && m["replyToId"] == replyToId
  {
    map[
      "type" := JStr("message"),
      "from" := JArr([recipient]),
      "conversation" := conversation,
      "recipient" := receivedFrom,
      "text" := text,
      "replyToId" := replyToId]
  }

  /** A Teams button that posts its value back as if the user had typed it. */
  function ImBackButton(title: Json, value: Json): Json {
    JObj(map["type" := JStr("imBack"), "title" := title, "value" := value])
  }

  /** One Lex button as a Teams button: `item["text"]` is read first, then `item["value"]`. */
  function ImBack(item: Json): (r: Eval<Json>)
    ensures r.Val? <==> item.JObj? && "text" in item.fields && "value" in item.fields
    ensures r.KeyError? <==> item.JObj? && !("text" in item.fields && "value" in item.fields)
    ensures r.Val? ==> r.value == ImBackButton(item.fields["text"], item.fields["value"])
  {
    var title :- Field(item, "text");
    var value :- Field(item, "value");
    Val(ImBackButton(title, value))
  }

  /** The list comprehension over the Lex buttons: translated in order, the first item that raises deciding the outcome. */
  function TranslateButtons(items: seq<Json>): (r: Eval<seq<Json>>)
    ensures r.Val? <==> forall i :: 0 <= i < |items| ==> ImBack(items[i]).Val?
    ensures r.Val? ==> |r.value| == |items| && forall i :: 0 <= i < |items| ==> r.value[i] == ImBack(items[i]).value
    ensures !r.Val? ==>
      exists i :: 0 <= i < |items| && (forall j :: 0 <= j < i ==> ImBack(items[j]).Val?)
                                   && !ImBack(items[i]).Val?
                                   && (r.KeyError? <==> ImBack(items[i]).KeyError?)
  {
    if |items| == 0 then Val([])
    else
      var head :- ImBack(items[0]);
      var tail :- TranslateButtons(items[1..]);
      Val([head] + tail)
  }

  /**
   * `for item in j`: the elements of a list. The elements of a dictionary
   * or a string are strings, which cannot be subscripted by name, so a
   * non-empty one raises at its first item; other values are not iterable.
   */
  function Elements(j: Json): Eval<seq<Json>> {
    match j
    case JArr(a) => Val(a)
    case JObj(m) => if m == map[] then Val([]) else Fault
    case JStr(s) => if s == "" then Val([]) else Fault
    case _ => Fault
  }

  /** `responseCard['genericAttachments'][0]`: only the first attachment is ever read. */
  function FirstAttachment(responseCard: Json): Eval<Json> {
    var attachments :- Field(responseCard, "genericAttachments");
    First(attachments)
  }

  /** The Teams buttons for the first attachment's Lex buttons. */
  function LexButtons(responseCard: Json): (r: Eval<seq<Json>>)
    ensures r.Val? ==> forall b :: b in r.value ==>
      b.JObj? && b.fields.Keys == {"type", "title", "value"} && b.fields["type"] == JStr("imBack")
    ensures (&& FirstAttachment(responseCard).Val?
             && FirstAttachment(responseCard).value.JObj?
             && "buttons" !in FirstAttachment(responseCard).value.fields) ==> r == KeyError
  {
    var attachment :- FirstAttachment(responseCard);
    var buttons :- Field(attachment, "buttons");
    var items :- Elements(buttons);
    TranslateButtons(items)
  }

  /** The image of the first attachment: its `imageUrl`, with its `title` as alternative text. */
  function LexImage(responseCard: Json): (r: Eval<Json>)
    ensures FirstAttachment(responseCard).Val? && FirstAttachment(responseCard).value.JObj? ==>
      var attachment := FirstAttachment(responseCard).value.fields;
      && (r.Val? <==> ImageOf(attachment).Some?)
      && (r.Val? ==> r.value == ImageOf(attachment).value)
      && (!r.Val? ==> r.KeyError?)
    ensures !FirstAttachment(responseCard).Val? ==> !r.Val? && (r.KeyError? <==> FirstAttachment(responseCard).KeyError?)
  {
    var attachment :- FirstAttachment(responseCard);
    var url :- Field(attachment, "imageUrl");
    var title :- Field(attachment, "title");
    Val(JObj(map["url" := url, "alt" := title]))
  }

  /** The keys a thumbnail card adds to the message. */
  const CardKeys: set<string> := {"attachmentLayout", "attachments"}

  /** A single thumbnail-card attachment in list layout holding the buttons and, optionally, one image. */
  function ThumbnailCard(buttons: seq<Json>, image: Option<Json>): (card: map<string, Json>)
    ensures card.Keys == CardKeys
  {
    var content :=
      if image.Some? then map["buttons" := JArr(buttons), "images" := JArr([image.value])]
      else map["buttons" := JArr(buttons)];
    map[
      "attachmentLayout" := JStr("list"),
      "attachments" := JArr([JObj(map["contentType" := JStr(ThumbnailContentType), "content" := JObj(content)])])]
  }

  /**
   * The message after response-card translation. A `KeyError` while
   * reading the buttons is logged and leaves `teamsButtons` unbound; the
   * image's lookups are evaluated before the assignment target, so a
   * missing image key is passed over, while a present image then raises
   * on the unbound name.
   */
  function TranslateCard(message: map<string, Json>, response: map<string, Json>): (r: Eval<map<string, Json>>)
    ensures "responseCard" !in response ==> r == Val(message)
    ensures r.Val? ==> message.Keys <= r.value.Keys <= message.Keys + CardKeys
    ensures r.Val? ==> forall k :: k in message && k !in CardKeys ==> r.value[k] == message[k]
    ensures !r.KeyError?
  {
    if "responseCard" !in response then Val(message)
    else
      var card := response["responseCard"];
      match LexButtons(card)
      case Fault => Fault
      case KeyError =>
        (match LexImage(card)
         case Val(_) => Fault
         case KeyError => Val(message)
         case Fault => Fault)
      case Val(buttons) =>
        (match LexImage(card)
         case Val(image) => Val(message + ThumbnailCard(buttons, Some(image)))
         case KeyError => Val(message + ThumbnailCard(buttons, None))
         case Fault => Fault)
  }

  /**
   * The same translation as the source performs it, step by step: the card
   * is merged into the message, then the image is set on the card and the
   * card merged again. `teamsButtons` is `None` while the name is unbound.
   */
  method AttachResponseCard(message: map<string, Json>, response: map<string, Json>)
    returns (r: Eval<map<string, Json>>)
    ensures r == TranslateCard(message, response)
  {
    var msg := message;
    if "responseCard" in response {
      var card := response["responseCard"];
      var teamsButtons: Option<map<string, Json>> := None;
      var lexButtons := LexButtons(card);
      if lexButtons.Fault? {
        return Fault;
      } else if lexButtons.Val? {
        teamsButtons := Some(ThumbnailCard(lexButtons.value, None));
        msg := msg + teamsButtons.value;
      }
      var image := LexImage(card);
      if image.Fault? {
        return Fault;
      } else if image.Val? {
        if teamsButtons.None? {
          return Fault;
        }
        ghost var before := msg;
        teamsButtons := Some(ThumbnailCard(lexButtons.value, Some(image.value)));
        msg := msg + teamsButtons.value;
        assert msg == message + teamsButtons.value by {
          assert before == message + ThumbnailCard(lexButtons.value, None);
        }
      }
    }
    return Val(msg);
  }

  /** Every Lex button is a dictionary carrying a `text` and a `value`. */
  predicate WellFormedButtons(items: seq<Json>) {
    forall i :: 0 <= i < |items| ==> items[i].JObj? && "text" in items[i].fields && "value" in items[i].fields
  }

  /** The Teams buttons for well-formed Lex buttons: one each, in order, label and value carried over. */
  function ButtonsFor(items: seq<Json>): seq<Json>
    requires WellFormedButtons(items)
  {
    seq(|items|, i requires 0 <= i < |items| => ImBackButton(items[i].fields["text"], items[i].fields["value"]))
  }

  /** Well-formed Lex buttons always translate. */
  lemma TranslateWellFormedButtons(items: seq<Json>)
    requires WellFormedButtons(items)
    ensures TranslateButtons(items) == Val(ButtonsFor(items))
  {
    assert forall i :: 0 <= i < |items| ==> ImBack(items[i]) == Val(ButtonsFor(items)[i]);
    var r := TranslateButtons(items);
    assert r.Val?;
    assert r.value == ButtonsFor(items);
  }

  /** The image a first attachment yields, present only when it has both an `imageUrl` and a `title`. */
  function ImageOf(attachment: map<string, Json>): Option<Json> {
    if "imageUrl" in attachment && "title" in attachment
    then Some(JObj(map["url" := attachment["imageUrl"], "alt" := attachment["title"]]))
    else None
  }

  /**
   * A first attachment with a list of well-formed buttons becomes a single
   * thumbnail card holding those buttons in order, plus its image exactly
   * when both image keys are present; nothing else of the Lex card is read.
   */
  lemma CardFromButtons(message: map<string, Json>, response: map<string, Json>, attachment: map<string, Json>)
    requires "responseCard" in response
    requires FirstAttachment(response["responseCard"]) == Val(JObj(attachment))
    requires "buttons" in attachment && attachment["buttons"].JArr?
    requires WellFormedButtons(attachment["buttons"].items)
    ensures TranslateCard(message, response)
         == Val(message + ThumbnailCard(ButtonsFor(attachment["buttons"].items), ImageOf(attachment)))
  {
    var responseCard := response["responseCard"];
    var items := attachment["buttons"].items;
    TranslateWellFormedButtons(items);
    assert Field(JObj(attachment), "buttons") == Val(attachment["buttons"]);
    assert LexButtons(responseCard) == Val(ButtonsFor(items));
    if ImageOf(attachment).Some? {
      assert LexImage(responseCard) == Val(ImageOf(attachment).value);
    } else {
      assert LexImage(responseCard).KeyError?;
    }
  }

  /**
   * A `KeyError` while reading the buttons (no `buttons` key, or a button
   * without `text` or `value`) leaves the message as it is when the first
   * attachment has no complete image, but makes the handler raise when it
   * has one: the image is assigned into a card that was never created.
   */
  lemma CardWithoutButtons(message: map<string, Json>, response: map<string, Json>, attachment: map<string, Json>)
    requires "responseCard" in response
    requires FirstAttachment(response["responseCard"]) == Val(JObj(attachment))
    requires LexButtons(response["responseCard"]) == KeyError
    ensures ImageOf(attachment).None? ==> TranslateCard(message, response) == Val(message)
    ensures ImageOf(attachment).Some? ==> TranslateCard(message, response) == Fault
  {
  }


  /**
   * A `KeyError` before any attachment is found (no `genericAttachments`,
   * or a dictionary in its place) is caught and leaves the message as it
   * is; any other failure there, such as an empty list, raises.
   */
  lemma CardWithoutAttachment(message: map<string, Json>, response: map<string, Json>)
    requires "responseCard" in response
    ensures FirstAttachment(response["responseCard"]).KeyError? ==> TranslateCard(message, response) == Val(message)
    ensures FirstAttachment(response["responseCard"]).Fault? ==> TranslateCard(message, response) == Fault
  {
  }

  /** Two Lex responses whose cards agree on the first attachment translate alike. */
  lemma CardReadsFirstAttachmentOnly(message: map<string, Json>, one: map<string, Json>, other: map<string, Json>)
    requires "responseCard" in one && "responseCard" in other
    requires FirstAttachment(one["responseCard"]) == FirstAttachment(other["responseCard"])
    ensures TranslateCard(message, one) == TranslateCard(message, other)
  {
  }

  /**
   * A card with two buttons and an image: one thumbnail attachment, two
   * buttons in their original order with labels and values kept, and one
   * image with the card's URL and title.
   */
  lemma TwoButtonsAndImage(message: map<string, Json>, label1: Json, value1: Json, label2: Json, value2: Json,
                           url: Json, title: Json, others: seq<Json>)
    ensures var attachment := map[
              "title" := title, "imageUrl" := url,
              "buttons" := JArr([JObj(map["text" := label1, "value" := value1]), JObj(map["text" := label2, "value" := value2])])];
            var response := map["responseCard" := JObj(map["genericAttachments" := JArr([JObj(attachment)] + others)])];
            var r := TranslateCard(message, response);
            r.Val? &&
            r.value["attachmentLayout"] == JStr("list") &&
            r.value["attachments"] == JArr([JObj(map[
              "contentType" := JStr(ThumbnailContentType),
              "content" := JObj(map[
                "buttons" := JArr([ImBackButton(label1, value1), ImBackButton(label2, value2)]),
                "images" := JArr([JObj(map["url" := url, "alt" := title])])])])])
  {
    var attachment := map[
      "title" := title, "imageUrl" := url,
      "buttons" := JArr([JObj(map["text" := label1, "value" := value1]), JObj(map["text" := label2, "value" := value2])])];
    var response := map["responseCard" := JObj(map["genericAttachments" := JArr([JObj(attachment)] + others)])];
    var items := attachment["buttons"].items;
    TwoButtonsFor(label1, value1, label2, value2);
    assert FirstAttachment(response["responseCard"]) == Val(JObj(attachment));
    CardFromButtons(message, response, attachment);
    var image := JObj(map["url" := url, "alt" := title]);
    assert ImageOf(attachment) == Some(image);
    var buttons := [ImBackButton(label1, value1), ImBackButton(label2, value2)];
    var card := ThumbnailCard(buttons, Some(image));
    assert TranslateCard(message, response) == Val(message + card);
    CardOverMessage(message, card);
  }

  /** The card's keys override whatever the message held under them. */
  lemma CardOverMessage(message: map<string, Json>, card: map<string, Json>)
    requires card.Keys == CardKeys
    ensures (message + card)["attachmentLayout"] == card["attachmentLayout"]
    ensures (message + card)["attachments"] == card["attachments"]
  {
  }

  /** Two well-formed Lex buttons become two imBack buttons, in order. */
  lemma TwoButtonsFor(label1: Json, value1: Json, label2: Json, value2: Json)
    ensures var items := [JObj(map["text" := label1, "value" := value1]), JObj(map["text" := label2, "value" := value2])];
            WellFormedButtons(items) && ButtonsFor(items) == [ImBackButton(label1, value1), ImBackButton(label2, value2)]
  {
    var items := [JObj(map["text" := label1, "value" := value1]), JObj(map["text" := label2, "value" := value2])];
    assert WellFormedButtons(items);
    assert ButtonsFor(items) == [ImBackButton(label1, value1), ImBackButton(label2, value2)];
  }

  /** The acknowledgement returned to the caller: a status code and a body `{"type": "message", "text": text}`. */
  datatype Acknowledgement = Acknowledgement(statusCode: int, body: Json)

  function Close(statusCode: int, text: Json): (r: Acknowledgement)
    ensures r.statusCode == statusCode
    ensures r.body.JObj? && r.body.fields.Keys == {"type", "text"}
    ensures Field(r.body, "type") == Val(JStr("message")) && Field(r.body, "text") == Val(text)
  {
    Acknowledgement(statusCode, JObj(map["type" := JStr("message"), "text" := text]))
  }
}

=== FILE: percent_encoding.dfy ===
/**
 * `urllib.parse.quote(s, safe="")`: the string is encoded as UTF-8 and
 * every byte outside the unreserved set of section 2.3 of RFC 3986 is
 * written as a percent-encoded octet (section 2.1 of RFC 3986), with
 * upper-case hexadecimal digits.
 */
module PercentEncoding {
  import opened Wrappers

  type byte = x: int | 0 <= x < 256

  /** ALPHA / DIGIT / "-" / "." / "_" / "~" (section 2.3 of RFC 3986). */
  predicate IsUnreserved(c: char) {
    ('A' <= c <= 'Z') || ('a' <= c <= 'z') || ('0' <= c <= '9') || c == '-' || c == '.' || c == '_' || c == '~'
  }

  predicate IsUpperHex(c: char) {
    ('0' <= c <= '9') || ('A' <= c <= 'F')
  }

  function HexDigit(d: int): (c: char)
    requires 0 <= d < 16
    ensures IsUpperHex(c)
  {
    if d < 10 then (('0' as int) + d) as char else (('A' as int) + d - 10) as char
  }

  function HexValue(c: char): (d: int)
    requires IsUpperHex(c)
    ensures 0 <= d < 16
  {
    if c <= '9' then c as int - '0' as int else c as int - 'A' as int + 10
  }

  /** The UTF-8 encoding of one Unicode scalar value. */
  function Utf8(c: char): (bytes: seq<byte>)
    ensures 1 <= |bytes| <= 4
    ensures |bytes| == 1 <==> c as int < 0x80
    ensures |bytes| == 1 ==> bytes[0] == c as int
  {
    var n := c as int;
    if n < 0x80 then [n]
    else if n < 0x800 then [0xC0 + n / 0x40, 0x80 + n % 0x40]
    else if n < 0x1_0000 then [0xE0 + n / 0x1000, 0x80 + (n / 0x40) % 0x40, 0x80 + n % 0x40]
    else [0xF0 + n / 0x4_0000, 0x80 + (n / 0x1000) % 0x40, 0x80 + (n / 0x40) % 0x40, 0x80 + n % 0x40]
  }

  function Utf8Encode(s: string): seq<byte> {
    if |s| == 0 then [] else Utf8(s[0]) + Utf8Encode(s[1..])
  }

  /** One byte as it appears in the output: itself when unreserved, otherwise `%XY`. */
  function EncodeByte(b: byte): (t: string)
    ensures |t| == 1 || |t| == 3
    ensures |t| == 1 <==> IsUnreserved(b as char)
    ensures |t| == 1 ==> t[0] == b as char
    ensures |t| == 3 ==> t[0] == '%' && IsUpperHex(t[1]) && IsUpperHex(t[2])
    ensures |t| == 3 ==> HexValue(t[1]) * 16 + HexValue(t[2]) == b
  {
    if IsUnreserved(b as char) then [b as char] else ['%', HexDigit(b / 16), HexDigit(b % 16)]
  }

  /** Every character of an encoded string is unreserved, `%`, or an upper-case hex digit. */
  predicate IsEncodedAlphabet(t: string) {
    forall i :: 0 <= i < |t| ==> IsUnreserved(t[i]) || t[i] == '%' || IsUpperHex(t[i])
  }

  function EncodeBytes(bytes: seq<byte>): (t: string)
    ensures IsEncodedAlphabet(t)
  {
    if |bytes| == 0 then [] else EncodeByte(bytes[0]) + EncodeBytes(bytes[1..])
  }

  /** `urllib.parse.quote(s, safe="")`. */
  function Quote(s: string): (t: string)
    ensures IsEncodedAlphabet(t)
    ensures '&' !in t && '=' !in t && '+' !in t && ' ' !in t
  {
    var t := EncodeBytes(Utf8Encode(s));
    assert forall i :: 0 <= i < |t| ==> t[i] != '&' && t[i] != '=' && t[i] != '+' && t[i] != ' ';
    t
  }

  /** Percent-decoding (section 2.1 of RFC 3986) of a string in the encoded alphabet; `None` on a malformed escape. */
  function PercentDecode(t: string): Option<seq<byte>> {
    if |t| == 0 then Some([])
    else if t[0] == '%' then
      if |t| >= 3 && IsUpperHex(t[1]) && IsUpperHex(t[2]) then
        match PercentDecode(t[3..])
        case Some(rest) => Some([HexValue(t[1]) * 16 + HexValue(t[2])] + rest)
        case None => None
      else None
    else if IsUnreserved(t[0]) && t[0] as int < 256 then
      match PercentDecode(t[1..])
      case Some(rest) => Some([t[0] as int] + rest)
      case None => None
    else None
  }

  /** Decoding an encoded byte string gives back the bytes. */
  lemma {:induction false} DecodeEncodeBytes(bytes: seq<byte>)
    ensures PercentDecode(EncodeBytes(bytes)) == Some(bytes)
  {
    if |bytes| > 0 {
      var head := EncodeByte(bytes[0]);
      var tail := EncodeBytes(bytes[1..]);
      DecodeEncodeBytes(bytes[1..]);
      assert (head + tail)[|head|..] == tail;
      if |head| == 1 {
        assert (head + tail)[0] == bytes[0] as char;
      } else {
        assert (head + tail)[0] == '%';
      }
      assert bytes == [bytes[0]] + bytes[1..];
    }
  }

  /** `quote` is undone by percent-decoding, which yields the UTF-8 bytes of the original string. */
  lemma QuoteDecodes(s: string)
    ensures PercentDecode(Quote(s)) == Some(Utf8Encode(s))
  {
    DecodeEncodeBytes(Utf8Encode(s));
  }

  /** A string made only of unreserved characters is left as it is. */
  lemma {:induction false} QuoteUnreserved(s: string)
    requires forall i :: 0 <= i < |s| ==> IsUnreserved(s[i])
    ensures Quote(s) == s
  {
    if |s| > 0 {
      QuoteUnreserved(s[1..]);
      assert Utf8(s[0]) == [s[0] as int];
      assert Utf8Encode(s) == [s[0] as int] + Utf8Encode(s[1..]);
      assert EncodeBytes(Utf8Encode(s)) == [s[0]] + EncodeBytes(Utf8Encode(s[1..]));
      assert s == [s[0]] + s[1..];
    }
  }
}

=== FILE: session.dfy ===
/** The session attributes sent with the utterance: the bot's stored attributes overlaid with the Teams-derived ones. */
module Session {
  import opened Wrappers
  import opened Json
  import Adapter

  /** `get_session` answered with a `sessionAttributes` dictionary. */
  predicate HasAttributeDictionary(getSession: Option<map<string, Json>>) {
    getSession.Some? && "sessionAttributes" in getSession.value && getSession.value["sessionAttributes"].JObj?
  }

  /**
   * The attributes of a `get_session` response with null values dropped;
   * empty when the call failed or the response holds no attribute dictionary.
   */
  function FetchedAttributes(getSession: Option<map<string, Json>>): (m: map<string, Json>)
    ensures forall k :: k in m ==> m[k] != JNull
    ensures HasAttributeDictionary(getSession) ==>
      var attrs := getSession.value["sessionAttributes"].fields;
      && m.Keys <= attrs.Keys
      && forall k :: k in attrs && attrs[k] != JNull ==> k in m && m[k] == attrs[k]
    ensures !HasAttributeDictionary(getSession) ==> m == map[]
  {
    match getSession
    case Some(response) =>
      if "sessionAttributes" in response && response["sessionAttributes"].JObj? then
        var attrs := response["sessionAttributes"].fields;
        map k | k in attrs && attrs[k] != JNull :: attrs[k]
      else map[]
    case None => map[]
  }

  /** The Teams-derived attributes; a null value asks for the key to be removed. */
  function TeamsAttributes(userName: string, aadObjectId: string, tenantId: Json,
                           teamsTeamId: Json, teamsChannelId: Json, body: Json): (t: map<string, Json>)
    ensures t.Keys == {"userName", "firstName", "aadObjectId", "tenantId", "teamsTeamId", "teamsChannelId", "ms-teams-request-body"}
    ensures t["userName"] == JStr(userName) && t["firstName"] == JStr(Adapter.FirstName(userName))
    ensures t["aadObjectId"] == JStr(aadObjectId) && t["tenantId"] == tenantId
    ensures t["teamsTeamId"] == teamsTeamId && t["teamsChannelId"] == teamsChannelId
    ensures t["ms-teams-request-body"] == body
  {
    map[
      "userName" := JStr(userName),
      "firstName" := JStr(Adapter.FirstName(userName)),
      "aadObjectId" := JStr(aadObjectId),
      "tenantId" := tenantId,
      "teamsTeamId" := teamsTeamId,
      "teamsChannelId" := teamsChannelId,
      "ms-teams-request-body" := body]
  }

  /** `base` with every non-null value of `teams` written over it and every null-valued key of `teams` removed. */
  function Overlay(base: map<string, Json>, teams: map<string, Json>): (r: map<string, Json>)
    ensures forall k :: k in teams && teams[k] != JNull ==> k in r && r[k] == teams[k]
    ensures forall k :: k in teams && teams[k] == JNull ==> k !in r
    ensures forall k :: k !in teams ==> (k in r <==> k in base)
    ensures forall k :: k !in teams && k in r ==> r[k] == base[k]
  {
    map k | k in base.Keys + teams.Keys && (k in teams ==> teams[k] != JNull) :: if k in teams then teams[k] else base[k]
  }

  /** The attributes passed to `post_text`. */
  function SessionAttributes(getSession: Option<map<string, Json>>, teams: map<string, Json>): (r: map<string, Json>)
    ensures forall k :: k in r ==> r[k] != JNull
  {
    Overlay(FetchedAttributes(getSession), teams)
  }

  /** The entries of `teams` whose keys are in `keys`. */
  function Restrict(teams: map<string, Json>, keys: set<string>): map<string, Json> {
    map k | k in keys && k in teams :: teams[k]
  }

  /**
   * The in-place merge: starting from the fetched attributes, each Teams
   * key is deleted when its value is null and assigned otherwise.
   */
  method MergeSessionAttributes(getSession: Option<map<string, Json>>, teams: map<string, Json>)
    returns (session: map<string, Json>)
    ensures session == SessionAttributes(getSession, teams)
  {
    var fetched := FetchedAttributes(getSession);
    session := fetched;
    var pending := teams.Keys;
    ghost var done: set<string> := {};
    OverlayNothing(fetched, teams);
    while pending != {}
      invariant pending <= teams.Keys && done == teams.Keys - pending
      invariant session == Overlay(fetched, Restrict(teams, done))
      decreases pending
    {
      var key :| key in pending;
      OverlayStep(fetched, teams, done, key);
      if teams[key] == JNull {
        if key in session {
          session := session - {key};
        }
      } else {
        session := session[key := teams[key]];
      }
      pending := pending - {key};
      done := done + {key};
    }
    assert Restrict(teams, done) == teams;
  }

  /** Before any Teams key is processed the attributes are the fetched ones. */
  lemma OverlayNothing(base: map<string, Json>, teams: map<string, Json>)
    ensures Overlay(base, Restrict(teams, {})) == base
  {
    assert Restrict(teams, {}) == map[];
  }

  /** Processing one more Teams key deletes or assigns that key and leaves the rest alone. */
  lemma OverlayStep(base: map<string, Json>, teams: map<string, Json>, done: set<string>, key: string)
    requires key in teams
    ensures teams[key] == JNull ==>
      Overlay(base, Restrict(teams, done + {key})) == Overlay(base, Restrict(teams, done)) - {key}
    ensures teams[key] != JNull ==>
      Overlay(base, Restrict(teams, done + {key})) == Overlay(base, Restrict(teams, done))[key := teams[key]]
  {
    if teams[key] == JNull {
      OverlayDelete(base, teams, done, key);
    } else {
      OverlayAssign(base, teams, done, key);
    }
  }

  lemma OverlayDelete(base: map<string, Json>, teams: map<string, Json>, done: set<string>, key: string)
    requires key in teams && teams[key] == JNull
    ensures Overlay(base, Restrict(teams, done + {key})) == Overlay(base, Restrict(teams, done)) - {key}
  {
    var before := Overlay(base, Restrict(teams, done));
    var after := Overlay(base, Restrict(teams, done + {key}));
    assert after.Keys == before.Keys - {key};
  }

  lemma OverlayAssign(base: map<string, Json>, teams: map<string, Json>, done: set<string>, key: string)
    requires key in teams && teams[key] != JNull
    ensures Overlay(base, Restrict(teams, done + {key})) == Overlay(base, Restrict(teams, done))[key := teams[key]]
  {
    var before := Overlay(base, Restrict(teams, done));
    var after := Overlay(base, Restrict(teams, done + {key}));
    assert after.Keys == before.Keys + {key};
  }

  /**
   * What the merge promises: no value is null; every non-null Teams value
   * is present; every null-valued Teams key is absent; every other key
   * keeps its fetched value; a failed fetch starts from nothing.
   */
  lemma SessionAttributesSpec(getSession: Option<map<string, Json>>, teams: map<string, Json>)
    ensures var r := SessionAttributes(getSession, teams);
      && (forall k :: k in r ==> r[k] != JNull)
      && (forall k :: k in teams && teams[k] != JNull ==> k in r && r[k] == teams[k])
      && (forall k :: k in teams && teams[k] == JNull ==> k !in r)
      && (forall k :: k !in teams ==> (k in r <==> k in FetchedAttributes(getSession)))
      && (forall k :: k !in teams && k in r ==> r[k] == FetchedAttributes(getSession)[k])
      && (getSession.None? ==> r == map k | k in teams && teams[k] != JNull :: teams[k])
  {
  }

  /** Fetched {a: "1", b: null} with Teams {b: "2", c: null} gives exactly {a: "1", b: "2"}. */
  lemma SessionAttributesExample()
    ensures SessionAttributes(Some(map["sessionAttributes" := JObj(map["a" := JStr("1"), "b" := JNull])]),
                              map["b" := JStr("2"), "c" := JNull])
         == map["a" := JStr("1"), "b" := JStr("2")]
  {
    var fetched := FetchedAttributes(Some(map["sessionAttributes" := JObj(map["a" := JStr("1"), "b" := JNull])]));
    assert fetched == map["a" := JStr("1")];
    var r := Overlay(fetched, map["b" := JStr("2"), "c" := JNull]);
    assert r.Keys == {"a", "b"};
  }
}

=== FILE: strings.dfy ===
/** The Python `str` operations the handler and the adapter rely on: `find`, `endswith`, `strip` and `split`. */
module Strings {
  import opened Wrappers

  /** `pat` occurs in `s` starting at index `i`. */
  predicate MatchesAt(s: string, pat: string, i: int) {
    0 <= i && i + |pat| <= |s| && s[i..i + |pat|] == pat
  }

  /** `pat` occurs somewhere in `s`. */
  predicate Contains(s: string, pat: string) {
    exists i :: 0 <= i <= |s| && MatchesAt(s, pat, i)
  }

  /** `s.find(pat)`: the lowest index where `pat` occurs, `None` standing for Python's -1. */
  function Find(s: string, pat: string): (r: Option<nat>)
    ensures r.Some? ==> MatchesAt(s, pat, r.value)
    ensures r.Some? ==> forall j :: 0 <= j < r.value ==> !MatchesAt(s, pat, j)
    ensures r.None? <==> !Contains(s, pat)
  {
    FindFrom(s, pat, 0)
  }

  function FindFrom(s: string, pat: string, from: nat): (r: Option<nat>)
    requires from <= |s|
    ensures r.Some? ==> from <= r.value && MatchesAt(s, pat, r.value)
    ensures r.Some? ==> forall j :: from <= j < r.value ==> !MatchesAt(s, pat, j)
    ensures r.None? ==> forall j :: from <= j ==> !MatchesAt(s, pat, j)
    decreases |s| - from
  {
    if MatchesAt(s, pat, from) then Some(from)
    else if from == |s| then None
    else FindFrom(s, pat, from + 1)
  }

  /** `s.endswith(suffix)`. */
  predicate EndsWith(s: string, suffix: string) {
    |suffix| <= |s| && s[|s| - |suffix|..] == suffix
  }

  /**
   * The characters `str.strip()` removes, restricted to ASCII: space, tab,
   * line feed, vertical tab, form feed, carriage return and the four
   * separator controls U+001C to U+001F.
   */
  predicate IsSpace(c: char) {
    c == ' ' || ('\t' <= c <= '\r') || ('\U{1C}' <= c <= '\U{1F}')
  }

  predicate AllSpace(s: string) {
    forall k :: 0 <= k < |s| ==> IsSpace(s[k])
  }

  /** Neither end of `s` is whitespace. */
  predicate Trimmed(s: string) {
    |s| == 0 || (!IsSpace(s[0]) && !IsSpace(s[|s| - 1]))
  }

  /** The number of whitespace characters at the start of `s`. */
  function LeadingSpace(s: string): (n: nat)
    ensures n <= |s| && AllSpace(s[..n])
    ensures n < |s| ==> !IsSpace(s[n])
  {
    if |s| > 0 && IsSpace(s[0]) then
      var n := 1 + LeadingSpace(s[1..]);
      assert s[..n] == [s[0]] + s[1..][..n - 1];
      n
    else 0
  }

  /** The number of whitespace characters at the end of `s`. */
  function TrailingSpace(s: string): (n: nat)
    ensures n <= |s| && AllSpace(s[|s| - n..])
    ensures n < |s| ==> !IsSpace(s[|s| - n - 1])
  {
    if |s| > 0 && IsSpace(s[|s| - 1]) then
      var n := 1 + TrailingSpace(s[..|s| - 1]);
      assert s[|s| - n..] == s[..|s| - 1][|s| - n..] + [s[|s| - 1]];
      n
    else 0
  }

  /** Where `s.strip()` ends: before the trailing whitespace of what follows the leading whitespace. */
  function StripEnd(s: string): (b: nat)
    ensures LeadingSpace(s) <= b <= |s|
    ensures AllSpace(s[b..])
    ensures b > LeadingSpace(s) ==> !IsSpace(s[b - 1])
  {
    var a := LeadingSpace(s);
    var t := s[a..];
    var b := a + |t| - TrailingSpace(t);
    assert s[b..] == t[|t| - TrailingSpace(t)..];
    b
  }

  /** `s.strip()`: the longest middle part of `s` with no whitespace at either end. */
  function Strip(s: string): (r: string)
    ensures Trimmed(r)
  {
    s[LeadingSpace(s)..StripEnd(s)]
  }

  /** The strip is the slice between the leading and the trailing whitespace. */
  lemma StripBounds(s: string)
    ensures Strip(s) == s[LeadingSpace(s)..StripEnd(s)]
  {
  }

  /** Stripping removes only whitespace, and only at the two ends. */
  lemma StripRemovesOnlyOuterSpace(s: string)
    ensures exists a, b :: 0 <= a <= b <= |s| && Strip(s) == s[a..b] && AllSpace(s[..a]) && AllSpace(s[b..])
  {
    assert Strip(s) == s[LeadingSpace(s)..StripEnd(s)];
  }

  /** Stripping is idempotent. */
  lemma StripIdempotent(s: string)
    ensures Strip(Strip(s)) == Strip(s)
  {
    var r := Strip(s);
    TrimmedIsStripped(r);
  }

  /** A string with no whitespace at either end is its own strip. */
  lemma TrimmedIsStripped(s: string)
    requires Trimmed(s)
    ensures Strip(s) == s
  {
    assert LeadingSpace(s) == 0;
    assert TrailingSpace(s) == 0;
    assert s[0..|s|] == s;
  }

  /** `s.split(sep)` with an explicit one-character separator: empty pieces are kept. */
  function Split(s: string, sep: char): (pieces: seq<string>)
    ensures |pieces| >= 1
    ensures forall i :: 0 <= i < |pieces| ==> sep !in pieces[i]
    ensures |pieces| == 1 + Count(s, sep)
  {
    if |s| == 0 then [""]
    else
      var rest := Split(s[1..], sep);
      if s[0] == sep then [""] + rest
      else [[s[0]] + rest[0]] + rest[1..]
  }

  /** The number of occurrences of `c` in `s`. */
  function Count(s: string, c: char): nat {
    if |s| == 0 then 0 else (if s[0] == c then 1 else 0) + Count(s[1..], c)
  }

  /** `sep.join(pieces)`. */
  function Join(pieces: seq<string>, sep: char): string
    requires |pieces| >= 1
  {
    if |pieces| == 1 then pieces[0] else pieces[0] + [sep] + Join(pieces[1..], sep)
  }

  /** Splitting and re-joining with the same separator gives back the string. */
  lemma {:induction false} JoinSplit(s: string, sep: char)
    ensures Join(Split(s, sep), sep) == s
  {
    if |s| > 0 {
      var rest := Split(s[1..], sep);
      JoinSplit(s[1..], sep);
      if s[0] == sep {
        assert Split(s, sep)[1..] == rest;
      } else if |rest| == 1 {
        assert Split(s, sep) == [[s[0]] + rest[0]];
      } else {
        var pieces := Split(s, sep);
        assert pieces[1..] == rest[1..];
        assert Join(rest, sep) == rest[0] + [sep] + Join(rest[1..], sep);
        assert s == [s[0]] + s[1..];
      }
    }
  }

  /** Joining separator-free pieces and splitting again gives back the pieces. */
  lemma {:induction false} SplitJoin(pieces: seq<string>, sep: char)
    requires |pieces| >= 1
    requires forall i :: 0 <= i < |pieces| ==> sep !in pieces[i]
    ensures Split(Join(pieces, sep), sep) == pieces
  {
    if |pieces| == 1 {
      SplitFree(pieces[0], sep);
    } else {
      SplitJoin(pieces[1..], sep);
      SplitAfterFree(pieces[0], Join(pieces[1..], sep), sep);
      assert pieces == [pieces[0]] + pieces[1..];
    }
  }

  /** A string without the separator splits into itself alone. */
  lemma {:induction false} SplitFree(s: string, sep: char)
    requires sep !in s
    ensures Split(s, sep) == [s]
  {
    if |s| > 0 {
      assert sep !in s[1..];
      SplitFree(s[1..], sep);
      assert s[0] != sep;
      assert [s[0]] + s[1..] == s;
    }
  }

  /** A separator-free prefix followed by the separator becomes the first piece. */
  lemma {:induction false} SplitAfterFree(p: string, rest: string, sep: char)
    requires sep !in p
    ensures Split(p + [sep] + rest, sep) == [p] + Split(rest, sep)
  {
    if |p| == 0 {
      assert p + [sep] + rest == [sep] + rest;
      assert ([sep] + rest)[1..] == rest;
    } else {
      assert sep !in p[1..];
      SplitAfterFree(p[1..], rest, sep);
      assert (p + [sep] + rest)[1..] == p[1..] + [sep] + rest;
      assert [p[0]] + p[1..] == p;
    }
  }
}

=== FILE: tenants.dfy ===
/** The tenant check: the sender's tenant must be one of the configured comma-separated tenant ids. */
module Tenants {
  import opened Json
  import opened Strings

  /** The pieces of the configured tenant-id string, split on commas and not trimmed. */
  function TenantPieces(validTenantIds: string): seq<string> {
    Split(validTenantIds, ',')
  }

  /** The tenant id is a string equal to one of the pieces. */
  predicate IsListedTenant(tenantId: Json, validTenantIds: string) {
    exists i :: 0 <= i < |TenantPieces(validTenantIds)| && tenantId == JStr(TenantPieces(validTenantIds)[i])
  }

  /**
   * The outcome of the check: a falsy setting (absent, empty) authorises
   * nobody; a string is split; any other truthy value has no `split` and
   * the call raises.
   */
  function TenantCheck(tenantId: Json, msTenantIds: Json): (r: Eval<bool>)
    ensures r == Val(true) <==> msTenantIds.JStr? && msTenantIds.s != "" && IsListedTenant(tenantId, msTenantIds.s)
    ensures r == Fault <==> Truthy(msTenantIds) && !msTenantIds.JStr?
    ensures !r.KeyError?
  {
    if !Truthy(msTenantIds) then Val(false)
    else if msTenantIds.JStr? then Val(IsListedTenant(tenantId, msTenantIds.s))
    else Fault
  }

  /** The loop over the pieces, with its found flag and early exit. */
  method FindValidTenant(tenantId: Json, msTenantIds: Json) returns (r: Eval<bool>)
    ensures r == TenantCheck(tenantId, msTenantIds)
  {
    var found := false;
    if Truthy(msTenantIds) {
      if !msTenantIds.JStr? {
        return Fault;
      }
      var pieces := Split(msTenantIds.s, ',');
      var i := 0;
      while i < |pieces|
        invariant 0 <= i <= |pieces|
        invariant found <==> exists k :: 0 <= k < i && tenantId == JStr(pieces[k])
      {
        if tenantId == JStr(pieces[i]) {
          found := true;
          break;
        }
        i := i + 1;
      }
      assert pieces == TenantPieces(msTenantIds.s);
    }
    return Val(found);
  }

  /**
   * For a tenant list written out as separator-free pieces, the tenant is
   * accepted exactly when it is one of them, compared exactly.
   */
  lemma CheckAgainstList(tenant: string, pieces: seq<string>)
    requires |pieces| >= 1
    requires forall i :: 0 <= i < |pieces| ==> ',' !in pieces[i]
    requires Join(pieces, ',') != ""
    ensures TenantCheck(JStr(tenant), JStr(Join(pieces, ','))) == Val(tenant in pieces)
  {
    SplitJoin(pieces, ',');
    if tenant in pieces {
      var i :| 0 <= i < |pieces| && pieces[i] == tenant;
      assert JStr(tenant) == JStr(TenantPieces(Join(pieces, ','))[i]);
    }
  }

  /** An empty setting authorises nobody, not even an empty tenant id, although splitting "" gives [""]. */
  lemma EmptySettingAuthorisesNobody(tenantId: Json)
    ensures TenantCheck(tenantId, JStr("")) == Val(false)
    ensures TenantCheck(tenantId, JNull) == Val(false)
    ensures IsListedTenant(JStr(""), "")
  {
    assert TenantPieces("") == [""];
    assert JStr("") == JStr(TenantPieces("")[0]);
  }

  /** Pieces are not trimmed: with "a, b" configured, tenant "b" is refused and " b" accepted. */
  lemma NoTrimming()
    ensures TenantCheck(JStr("b"), JStr("a, b")) == Val(false)
    ensures TenantCheck(JStr(" b"), JStr("a, b")) == Val(true)
  {
    var pieces := ["a", " b"];
    assert Join(pieces[1..], ',') == " b";
    assert Join(pieces, ',') == "a, b";
    CheckAgainstList("b", ["a", " b"]);
    CheckAgainstList(" b", ["a", " b"]);
  }

  /** A tenant list given as a JSON list, as the record's declared type suggests, makes the check raise. */
  lemma ListSettingFaults(tenantId: Json)
    ensures TenantCheck(tenantId, JArr([JStr("x")])) == Fault
  {
  }
}

=== FILE: utterance.dfy ===
/** Turning the raw Teams message text into the utterance sent to the bot. */
module Utterance {
  import opened Wrappers
  import opened Strings

  /** The closing tag of an @-mention. */
  const MentionClose := "</at>"

  /** A two-character backslash-n that Teams leaves at the end of some messages. */
  const EscapedNewline := "\\n"

  /** Drops one trailing backslash-n, if there is one. */
  function DropEscapedNewline(s: string): (r: string)
    ensures EndsWith(s, EscapedNewline) ==> r + EscapedNewline == s
    ensures !EndsWith(s, EscapedNewline) ==> r == s
  {
    if EndsWith(s, EscapedNewline) then s[..|s| - 2] else s
  }

  /**
   * The utterance: when the text holds a mention, what follows the first
   * `</at>`, less one trailing backslash-n and surrounding whitespace;
   * otherwise the text exactly as received.
   */
  function NormalizeUtterance(text: string): (u: string)
    ensures !Contains(text, MentionClose) ==> u == text
    ensures Contains(text, MentionClose) ==> Trimmed(u)
  {
    match Find(text, MentionClose)
    case None => text
    case Some(i) => Strip(DropEscapedNewline(text[i + |MentionClose|..]))
  }

  /** With the first `</at>` at index `i`, the utterance is the strip of what follows it, less one trailing backslash-n. */
  lemma NormalizeAfterFirstMention(text: string, i: nat)
    requires MatchesAt(text, MentionClose, i)
    requires forall j :: 0 <= j < i ==> !MatchesAt(text, MentionClose, j)
    ensures NormalizeUtterance(text) == Strip(DropEscapedNewline(text[i + 5..]))
  {
    assert Contains(text, MentionClose);
    assert Find(text, MentionClose).value <= i;
  }

  /** The utterance is therefore a part of the text lying after the first mention. */
  lemma NormalizeWithinSuffix(text: string, i: nat)
    requires MatchesAt(text, MentionClose, i)
    requires forall j :: 0 <= j < i ==> !MatchesAt(text, MentionClose, j)
    ensures exists a, b :: i + 5 <= a <= b <= |text| && NormalizeUtterance(text) == text[a..b]
  {
    NormalizeAfterFirstMention(text, i);
    StripOfSuffixIsSlice(text, i + 5);
  }

  lemma StripOfSuffixIsSlice(text: string, k: nat)
    requires k <= |text|
    ensures exists a, b :: k <= a <= b <= |text| && Strip(DropEscapedNewline(text[k..])) == text[a..b]
  {
    var chopped := DropEscapedNewline(text[k..]);
    var a, b := LeadingSpace(chopped), StripEnd(chopped);
    StripBounds(chopped);
    assert chopped[a..b] == text[k + a .. k + b];
  }

  /** No `</at>` starts before index `i` when no earlier `<` is followed by `/`. */
  lemma NoMentionBefore(text: string, i: nat)
    requires i < |text|
    requires forall j :: 0 <= j < i ==> text[j] != '<' || text[j + 1] != '/'
    ensures forall j :: 0 <= j < i ==> !MatchesAt(text, MentionClose, j)
  {
    forall j | 0 <= j < i
      ensures !MatchesAt(text, MentionClose, j)
    {
      if j + 5 <= |text| {
        assert text[j..j + 5][0] == text[j] && text[j..j + 5][1] == text[j + 1];
      }
    }
  }

  /** A single space before a trimmed word is all that stripping removes. */
  lemma StripLeadingBlank(word: string)
    requires Trimmed(word)
    ensures Strip([' '] + word) == word
  {
    var s := [' '] + word;
    assert s[1..] == word;
    assert LeadingSpace(s) == 1 + LeadingSpace(word);
    assert LeadingSpace(word) == 0;
    assert StripEnd(s) == |s|;
    assert s[1..|s|] == word;
  }

  /** The text Teams sends for a mention of the bot followed by a word. */
  function MentionMessage(name: string, word: string): string {
    "<at>" + name + MentionClose + " " + word + EscapedNewline
  }

  /** In a mention message whose name holds no `<`, the first `</at>` follows the name. */
  lemma MentionMessageFirstMention(name: string, word: string)
    requires '<' !in name
    ensures MatchesAt(MentionMessage(name, word), MentionClose, 4 + |name|)
    ensures forall j :: 0 <= j < 4 + |name| ==> !MatchesAt(MentionMessage(name, word), MentionClose, j)
  {
    var t := MentionMessage(name, word);
    var i := 4 + |name|;
    forall j | 0 <= j < i
      ensures t[j] != '<' || t[j + 1] != '/'
    {
      if j == 0 {
        assert t[1] == 'a';
      } else if j < 4 {
        assert t[j] == "<at>"[j];
      } else {
        assert t[j] == name[j - 4];
      }
    }
    NoMentionBefore(t, i);
    assert t[i..i + 5] == MentionClose;
  }

  /**
   * A mention message whose name holds no `<` yields exactly the word when
   * the word has no whitespace at either end. The word may itself end in a
   * backslash-n, which is kept: only one is removed.
   */
  lemma NormalizeMentionedWord(name: string, word: string)
    requires '<' !in name
    requires Trimmed(word)
    ensures NormalizeUtterance(MentionMessage(name, word)) == word
  {
    MentionMessageFirstMention(name, word);
    NormalizeAfterFirstMention(MentionMessage(name, word), 4 + |name|);
    MentionMessageRest(name, word);
    StripLeadingBlank(word);
  }

  /** After the first mention, a mention message holds a blank, the word and a backslash-n. */
  lemma MentionMessageRest(name: string, word: string)
    ensures DropEscapedNewline(MentionMessage(name, word)[4 + |name| + 5..]) == [' '] + word
  {
    var rest := MentionMessage(name, word)[4 + |name| + 5..];
    assert rest == [' '] + word + EscapedNewline;
    assert EndsWith(rest, EscapedNewline);
  }
}

=== FILE: wrappers.dfy ===
/** Optional values, and results that carry an error. */
module Wrappers {

  datatype Option<+T> = None | Some(value: T)

  datatype Result<+T, +E> = Success(value: T) | Failure(error: E)
}
